=== FILE: README.md ===
# ConsolidadorCSV-Excel: the consolidation pipeline in Dafny

This project models the consolidation pipeline of ConsolidadorCSV-Excel. The
application takes a batch of CSV and Excel files. It reads each one through a
format dispatch and a CSV encoding chain, and puts two metadata columns in
front: the source file name and the processing time. It then drops the
columns the user asked to ignore and concatenates the files with outer-union
columns. Optionally it drops duplicate rows, then reports and saves the
result. The desktop window turns its two "include" modes into an exclude list
over the sorted union of the files' headers, and keeps its name lists free of
repeats.

The model is functional. Exceptions become `Result` values and per-file
`Outcome`s. The file system and the pandas readers are a `Disk` value of
function fields: the kind of entry at a path, the full read by an engine, and
the header-only read by an engine. The writers are a `write` function
parameter. The clock is a parameter: `clock(i)` is the moment the `i`-th valid
file is stamped, and a separate moment names the output file.

| file | module | models |
|---|---|---|
| `results.dfy` | `Results` | `Option`, `Result` |
| `text.dfy` | `Text` | the Python string operations used: ASCII `lower`, `endswith`, `os.path.basename`, `os.path.join`, `strip`, `split`/`join` on a character, and `str` ordering |
| `seqs.dfy` | `Seqs` | filters, first-occurrence deduplication (`drop_duplicates`, `duplicated`), append-if-absent and removal by position |
| `tables.dfy` | `Tables` | tables as column labels plus rows, and the outer-union `pd.concat` |
| `clock.dfy` | `Clock` | the two `strftime` layouts and parsers that read them back |
| `files.dfy` | `Files` | `src/utils.py`: validation, reading, transform, saving, naming, summary, duplicate report |
| `consolidation.dfy` | `Consolidation` | `src/processor.py`: configuration, the per-file loop, gathering, saving, process-and-save |
| `interface.dfy` | `Interface` | the pure logic of `src/ui.py`: list parsing, additions, removals and clearing, header discovery, include-to-exclude, the run guard |

## Model

| member | source | states |
|---|---|---|
| Text.BasenameIdempotent | src/utils.py:35 | The basename of a basename is itself. |
| Text.BasenameUnique | src/utils.py:226 | A slash-free tail of a path that is the whole path or follows a `/` is its basename. So the three facts `Basename` ensures determine it. |
| Text.StripIdempotent | src/ui.py:347 | Stripping twice is the same as stripping once. |
| Text.JoinSplit | src/ui.py:353 | Splitting a text on a character and joining the pieces with that character gives the text back. |
| Text.SplitJoin | src/ui.py:353 | Joining comma-free pieces and splitting again gives the same pieces. |
| Text.LessTransitive | src/ui.py:574 | Python's string order, used by `sorted`, is transitive. |
| Text.LessTotal | src/ui.py:574 | Any two distinct strings are ordered one way or the other. |
| Seqs.AppendAbsent | src/ui.py:354-357 | Appending only the absent items keeps the old list as a prefix. The result holds exactly the old and the new items, and a repeat-free list stays repeat-free. |
| Seqs.AppendAbsentAdds | src/ui.py:217-220 | The appended tail is the new items not already present, in order, each once. |
| Seqs.DropDuplicatesOrder | src/processor.py:123 | Dropping duplicate rows keeps the first occurrences, in their original order. |
| Seqs.DropDuplicatesCount | src/processor.py:120-125 | Rows kept plus repeated rows equals all rows. |
| Seqs.DropDuplicatesIdempotent | src/processor.py:123 | Deduplicating again changes nothing and finds no repeats. |
| Seqs.WithinWithout | src/ui.py:408 | The names outside the include list and the names inside it split the union, as multisets and in count. |
| Tables.Concat | src/processor.py:117 | The concatenation is well formed and has every row of every table. A column is in it iff some table has it. |
| Tables.ConcatCell | src/processor.py:117 | Each cell of the concatenation holds the source row's value, or null when the source table lacks that column. |
| Tables.UnionStartsWithFirst | src/processor.py:117 | The first table's columns lead the concatenated columns, in their order. |
| Clock.ProcessingStampRoundTrip | src/utils.py:89 | The `%Y-%m-%d %H:%M:%S` stamp of a valid moment reads back to that moment. |
| Clock.FileStampRoundTrip | src/utils.py:154 | The `%Y%m%d_%H%M%S` stamp of a valid moment reads back to that moment. |
| Files.ValidatePartition | src/utils.py:176-204 | Valid and invalid lists together are the input paths. A path is valid iff it is a regular file with an accepted extension. A rejected path is "not found" iff it is not a regular file. |
| Files.Validate | src/utils.py:176-204 | The valid list is the accepted paths, in input order. The invalid list describes the other paths, in input order. |
| Files.ExtensionOfBasename | src/ui.py:562-568 | Testing the extension on the whole lower-cased path, as header discovery does, agrees with testing it on the lower-cased basename, as the full read does. |
| Files.ChainPicksFirst | src/utils.py:44-52 | The CSV read uses the first encoding, in the fixed order, that does not raise a decode error. |
| Files.Chain | src/utils.py:44-56 | The CSV read is either the last-resort read or the read with one of the listed encodings that did not raise a decode error. |
| Files.ChainFallsBack | src/utils.py:53-56 | When every encoding raises a decode error, the last-resort read is used. |
| Files.ReadFile | src/utils.py:21-65 | A successful read has an accepted extension. An unsupported extension fails with the wrapped "Tipo de archivo no soportado" message. |
| Files.ReadFileDispatch | src/utils.py:35-56 | `.xlsx` goes to openpyxl, `.xls` to xlrd and `.csv` to the encoding chain, each failure wrapped as "Error al leer". |
| Files.ReadFileNeedsTwoEncodings | src/utils.py:44-56 | When Latin-1 decodes a file, the read depends only on the Excel, UTF-8 and Latin-1 attempts. The later encodings and the last resort are never reached. |
| Files.Insert | src/utils.py:90-91 | Inserting an existing label fails with pandas' message. Otherwise the label sits at the given position, with the value in every row. |
| Files.DropAll | src/utils.py:94-103 | The requested labels are removed from the columns and every row. The removed list names, once each in request order, the requested labels that were present. |
| Files.Transform | src/utils.py:68-103 | The transform fails iff a metadata name clashes. Otherwise the columns are the metadata names then the read columns, minus the ignored ones, and the row count is kept. |
| Files.TransformRows | src/utils.py:86-103 | Every surviving row carries the basename and the processing stamp in the metadata columns, and the read value in every kept column. |
| Files.SaveFile | src/utils.py:106-137 | Only `csv` and `xlsx`, in any case, can succeed. Each uses its own writer, and the outcome is the writer's. |
| Files.OutputName | src/utils.py:144-156 | The default output name starts with `consolidado_` and ends in the format's extension. For a valid moment, the part between them parses as a `%Y%m%d_%H%M%S` stamp back to that moment. |
| Files.OutputNameInjective | src/utils.py:154-156 | Different valid moments give different default names. |
| Files.Summarize | src/utils.py:211-229 | The summary counts the final rows, columns and processed files. Each listed name is a slash-free tail of its file's path that is the whole path or follows a `/`, which makes it the basename. |
| Files.DetectDuplicates | src/utils.py:232-249 | For a table with columns, the duplicate indices are exactly the rows equal to an earlier row, in increasing order. Their count plus the distinct rows is the row count. A table without columns is empty to pandas and reports no duplicates. |
| Consolidation.Configure | src/processor.py:28-47 | The metadata names and the deduplication flag are stored. An absent ignore list is stored as the empty list. |
| Consolidation.NoIgnoreKeepsAll | src/processor.py:44 | With no ignore list, a processed file keeps every read column behind the two metadata columns, and nothing is reported removed. |
| Consolidation.ProcessFile | src/processor.py:80-106 | A file is processed iff it reads and transforms. A failure names the file. A processed file has the transformed rows, columns and removed list. |
| Consolidation.MetadataClashFails | src/processor.py:85-106 | A file that already has a metadata column fails with the insert message, wrapped with its path. |
| Consolidation.ProcessAll | src/processor.py:80-106 | One outcome per valid file, in order, each stamped with its own moment. |
| Consolidation.RemovedByFileKeys | src/processor.py:98 | The removed-columns map has keys only for the basenames of processed files. |
| Consolidation.RemovedByFileLastWins | src/processor.py:98 | When two processed files share a basename, the later one's entry is kept. |
| Consolidation.NoValidFilesExactly | src/processor.py:62-69 | The run stops with "no valid files" iff no path is an accepted regular file. |
| Consolidation.NoValidFilesReadsNothing | src/processor.py:62-69 | With no valid path the result depends only on the file kinds, and no file is read. |
| Consolidation.Run | src/processor.py:49-144 | The run stops with the invalid-path messages iff no path is valid. A run that processed nothing reports one error per valid file. A consolidated run reports the invalid paths, and its processed and errored files together number the valid files. |
| Consolidation.AllFilesFail | src/processor.py:80-113 | When every valid file fails, the run fails with one error per valid file, in order: the `i`-th error is the failure message of the `i`-th valid file, which names that file. |
| Consolidation.RunPartition | src/processor.py:49-144 | Processed plus errored files are the valid files. The processed files are a subsequence of the valid files, so they keep their order. Every processed path is an accepted valid path. Invalid plus valid files are the inputs. |
| Consolidation.RunErrors | src/processor.py:80-113 | In every run that tried at least one file, whether it failed or consolidated, the errors are one per valid file whose processing failed, and every such file has one. They follow the order of the valid files, and each starts with "Error procesando " and that file's path. |
| Consolidation.RunProcessed | src/processor.py:80-106 | The processed files are exactly the valid files whose read and transform succeeded, at increasing positions among the valid files, each listed as that file's path. |
| Consolidation.SummaryNamesAreRemovedKeys | src/processor.py:98-128 | The summary lists each processed file's basename, in order. Those names are exactly the keys of the removed-columns map. |
| Consolidation.ColumnSource | src/processor.py:117 | Every consolidated column comes from a valid input file that was processed. |
| Consolidation.RowCount | src/processor.py:117-125 | Final rows plus removed duplicates equal the rows read from the processed files. Without deduplication nothing is removed. |
| Consolidation.DeduplicationReport | src/processor.py:120-129 | With deduplication the report finds no repeats afterwards. When the concatenation has columns, the removed count is its number of repeats and no row repeats. Without deduplication, or without columns, nothing is removed and the table is the plain concatenation. |
| Consolidation.Deduplicate | src/processor.py:120-125 | With deduplication and at least one column, the rows are repeat-free, hold the same rows as before, and lose exactly the repeats. Without deduplication, or without columns, the table is unchanged. |
| Consolidation.ChooseName | src/processor.py:163-166 | A custom name gets the lower-cased format as its extension. Otherwise the default `consolidado_` name is used. |
| Consolidation.SaveConsolidated | src/processor.py:146-195 | A save succeeds only for `csv` or `xlsx` into a resolved directory. It reports the joined path, name, record and column counts. A failure gives the save error. |
| Consolidation.UnknownFormatNotSaved | src/utils.py:124-131 | Any other format is reported as a failed save. |
| Consolidation.ProcessAndSave | src/processor.py:197-231 | Saving happens iff the run consolidated, and it saves the consolidated table. |
| Consolidation.SaveLeavesRunAlone | src/processor.py:213-229 | The processing result does not depend on the output directory or the writer. A failed run is returned as it is. |
| Interface.ParseNames | src/ui.py:353 | Every parsed name is nonempty, comma-free and has no surrounding white space. |
| Interface.ParseJoin | src/ui.py:402-403 | Names that can be typed come back unchanged from being written comma-separated and parsed. |
| Interface.ParseIdempotent | src/ui.py:353 | Re-parsing a parsed list written back with commas gives the same list. |
| Interface.AddIgnored | src/ui.py:345-360 | A blank box or the placeholder only warns. Otherwise the new parsed names are appended, the list stays repeat-free and the box is cleared. |
| Interface.AddIgnoredTwice | src/ui.py:359-360 | After a successful addition, pressing again only warns. |
| Interface.AddIncluded | src/ui.py:215-221 | The selected names not yet included are appended in order, and the list stays repeat-free. |
| Interface.AddIncludedIdempotent | src/ui.py:217-220 | Adding the same selection twice adds nothing the second time. |
| Interface.SortedUnique | src/ui.py:574 | Two sorted, repeat-free lists with the same members are equal. |
| Interface.HeaderUnion | src/ui.py:558-574 | With the encoding-chain discovery `HeaderOf` (the corrected half of the Finding), the discovered union is sorted and repeat-free. A name is in it iff some selected file's header, read through the encoding chain, has it. Unreadable and unsupported files contribute nothing. |
| Interface.HeaderUnionAsWritten | src/ui.py:558-574 | The same, for the as-written discovery `HeaderAsWrittenOf`, which reads CSV headers with UTF-8 only. |
| Interface.HeaderUnionOrderFree | src/ui.py:558-574 | With any discovery, both the encoding-chain `HeaderOf` (the corrected half of the Finding) and the as-written `HeaderAsWrittenOf`, the union depends only on which files are selected, not on their order or repeats. |
| Interface.HeaderMatchesRead | src/ui.py:561-568 | With the encoding-chain discovery `HeaderOf` (the corrected half of the Finding), on a coherent disk, where header-only reads agree with full reads, a readable file's discovered header is exactly its read columns. The as-written discovery lacks this property; see Latin1ColumnsEscapeExclusion. |
| Interface.Complement | src/ui.py:408 | The exclude list is a subsequence of the union and holds exactly the union names not included. With the included ones it makes up the union. |
| Interface.ExcludeList | src/ui.py:397-412 | In ignore mode the exclude list is the user's list. In the include modes it is a sorted subsequence of the discovered union, holding exactly the union names not included. The discovery is a parameter. With `HeaderAsWrittenOf` it is the window's UTF-8-only discovery. |
| Interface.MetaName | src/ui.py:416-417 | A blank metadata box falls back to the default name. Otherwise the stripped text is used. |
| Interface.RunConfig | src/ui.py:415-420 | The run is configured with nonempty metadata names, the exclude list for the given discovery and the deduplication flag. |
| Interface.RunFromUi | src/ui.py:423-426 | The run processes the selected files with the configuration for the given discovery, and saves under a default `consolidado_` name. |
| Interface.IncludeModeKeepsOnlyIncluded | src/ui.py:397-420 | With the encoding-chain discovery `HeaderOf` (the corrected half of the Finding), on a coherent disk, a processed file in an include mode keeps only included columns and the metadata columns. The code as written does not have this property; see Latin1ColumnsEscapeExclusion. |
| Interface.IncludeModeConsolidatesOnlyIncluded | src/ui.py:397-426 | With the encoding-chain discovery `HeaderOf` (the corrected half of the Finding), on a coherent disk, the consolidated table of an include-mode run has only included columns and the metadata columns. |
| Interface.Latin1ColumnsEscapeExclusion | src/ui.py:563-564 | Counterexample: with the as-written discovery, a Latin-1-only CSV contributes no names. The window's run configuration then excludes nothing, so a column that was not included is kept by the processed file. |
| Interface.Latin1ColumnsExcluded | src/ui.py:563-564 | With the encoding chain, the same file's column is discovered and excluded. |
| Interface.SelectFiles | src/ui.py:306-325 | The new paths are appended in order without repeats. The available columns are recomputed, sorted, holding exactly the names the given discovery finds in some selected file. |
| Interface.SelectFilesIdempotent | src/ui.py:318-320 | Choosing the same files again changes nothing. |
| Interface.ActionsKeepInvariant | src/ui.py:215-221 | Selecting files and adding ignored or included names keep every list repeat-free and the available columns sorted. |
| Seqs.RemoveAtKept | src/ui.py:331-333 | The positions left by removing the selected ones are exactly the unselected positions, in increasing order, and the `j`-th element left is the element at the `j`-th of them. |
| Seqs.RemoveAtMembers | src/ui.py:331-333 | Every element left was in the list, and every element at an unselected position is left. |
| Seqs.RemoveAtNoDup | src/ui.py:331-333 | A repeat-free list stays repeat-free, and the elements at the selected positions are gone. |
| Seqs.RemoveAtNothing | src/ui.py:331-333 | With no position selected the list is unchanged. |
| Seqs.RemoveAtEverything | src/ui.py:331-333 | With every position selected nothing is left. |
| Seqs.RemoveAtOne | src/ui.py:366-367 | Removing one position is cutting that element out of the list. |
| Interface.RemoveFiles | src/ui.py:327-336 | The files at the selected positions are removed: those at unselected positions stay, and with a repeat-free list the selected ones are gone. The available columns are recomputed, sorted, holding exactly the names the discovery finds in a remaining file. Nothing else changes. |
| Interface.ClearFiles | src/ui.py:338-343 | Clearing leaves no file and, as the union of no headers, no available column. Nothing else changes. |
| Interface.RemoveEveryFile | src/ui.py:327-343 | Removing every file is the same as clearing the file list. |
| Interface.RemoveIgnored | src/ui.py:362-368 | Without a selection nothing changes. With one, exactly that name is cut out of the ignore list and nothing else changes. |
| Interface.ClearIgnored | src/ui.py:370-373 | Clearing empties the ignore list and changes nothing else. |
| Interface.RemoveIncluded | src/ui.py:223-229 | Only names already included are left. A repeat-free list stays repeat-free and loses the selected names. Nothing else changes. |
| Interface.ClearIncluded | src/ui.py:231-234 | Clearing empties the include list and changes nothing else. |
| Interface.ClearAllResets | src/ui.py:524-542 | Once confirmed, clearing everything gives back the window `__init__` builds, with only the output format and the busy flag left as they were. Without confirmation nothing changes. |
| Interface.RemovalsKeepInvariant | src/ui.py:327-373 | Removing files, ignored or included names, and clearing everything keep every list repeat-free and the available columns sorted. |
| Interface.RequestRun | src/ui.py:375-389 | A request starts a run iff none is running and some file is selected. A busy window ignores it, and an empty selection warns. |
| Interface.Finish | src/ui.py:496-500 | Finishing clears only the busy flag. |
| Interface.NoReentry | src/ui.py:377-384 | A second request during a run is refused. After the run finishes, the same request starts again. |

## Left out

- Tkinter widgets, layout, message boxes and result rendering are not modelled. A warning is a returned value.
- Threads are not modelled. The worker thread and `root.after` marshalling reduce to the busy flag.
- `actualizar_estadisticas` is not modelled: it only displays counts.
- List box selections (`curselection`) are parameters: a set of positions for the multi-selection file and include lists, and at most one position for the single-selection ignore list.
- Interface.RemoveIgnored: requires the selected position to be in the list. The list box always mirrors the ignore list, and `pop` would raise on any other position.
- Interface.RemoveIncluded: removes by position. `quitar_incluir_desde_seleccion` reads the name at each position and removes its first occurrence with `list.remove`. The include list never holds a name twice (Interface.Invariant), so that is the same element.
- Interface.ClearAllResets: `limpiar_todo` also empties the results text and re-lays out the mode sections. Those are widgets and are not modelled.
- `obtener_ruta_generados` is not modelled. The output directory comes in as a `Result<Path>`, since creating directories is I/O.
- Logging is not modelled.
- `config.py` and `main.py` are not part of this model.
- The pandas readers and writers are the `Disk` and `write` parameters. Cell types, dtype inference and the bytes written are not modelled.
- Header-only reads (`nrows=0`) are a separate `Disk` field. Their agreement with full reads is the hypothesis `Coherent`, not a fact.
- The last-resort `read_csv(..., errors='ignore')` is an opaque reader. Whether pandas accepts that keyword is not modelled.
- Read tables are assumed to have unique column labels, because pandas renames repeated header labels.
- Text.Lower: lowers ASCII letters only. Every comparison made on lowered text is against ASCII extensions, which full Unicode lowering decides the same way, but the lowered text of other characters is not Python's.
- Clock.ProcessingStampRoundTrip: ProcessingStamp pads years before 1000 to four digits, which glibc's `%Y` does not. The round trip is stated for that padded form. Clock.FileStampRoundTrip has the same restriction.
- Files.SaveFile: states which writer is used, not what the writer puts on disk.
- Text.Basename and Text.JoinPath follow POSIX `os.path`: only `/` separates components. On Windows, `ntpath` also splits on `\` and joins with `\`. That is not modelled.
- HeaderMatchesRead: column labels are strings in this model. `pd.read_excel` gives numeric or date labels for such header cells, and discovery turns them into strings with `str` (src/ui.py:571). For such a file the discovered names are not the read labels, and the lemma does not cover it.
- IncludeModeKeepsOnlyIncluded: holds only for string labels. With a numeric Excel header cell such as `2023`, the exclude list holds the text `"2023"`. The drop test at src/utils.py:96 compares it with the numeric label and finds no match, so that column stays in the processed file. The model cannot express such a label.
- IncludeModeConsolidatesOnlyIncluded: holds only for string labels, for the same reason. A numeric or date Excel header label reaches the consolidated table even when it is not included.

## Findings

| source | as written | input that shows it | evidently intended | confidence | as-written member | corrected member |
|---|---|---|---|---|---|---|
| src/ui.py:563-564 | Header discovery reads a CSV header with UTF-8 only. The full read falls back through Latin-1, CP1252 and ISO-8859-1 (src/utils.py:44-56). | `ventas.csv` with no rows and a single column `Teléfono`, stored in Latin-1, so its `é` is the byte 0xE9 and the file is not valid UTF-8. Manual include mode includes only `Cliente`. | Header discovery uses the same encoding chain as the full read. Then the complement covers every column of every readable file, and the output keeps only included columns. | medium, not executed | Interface.HeaderUnionAsWritten, Interface.Latin1ColumnsEscapeExclusion | Interface.HeaderUnion, Interface.IncludeModeConsolidatesOnlyIncluded |

With the code as written, the discovered union for that file is empty. The
exclude list is then empty, and `Teléfono` reaches the consolidated table
although it was not included. `ExcludeList`, `RunConfig`, `RunFromUi` and
`SelectFiles` take the discovery as a parameter. `HeaderAsWrittenOf` gives the
window as written, and `Latin1ColumnsEscapeExclusion` shows it building a
configuration that excludes nothing. The include-mode theorems are stated for
the corrected `HeaderOf`.

=== FILE: clock.dfy ===
/** Wall-clock moments and the two `strftime` layouts the consolidator writes:
    `%Y-%m-%d %H:%M:%S` in the processing-date column and `%Y%m%d_%H%M%S` in
    the output file name. Reading the clock is left to the caller: every
    operation that stamps takes the moment as a parameter. */
module Clock {
  import opened Results

  /** A naive local `datetime` truncated to the second. */
  datatype Moment = Moment(year: nat, month: nat, day: nat, hour: nat, minute: nat, second: nat)

  predicate Leap(y: nat) {
    (y % 4 == 0 && y % 100 != 0) || y % 400 == 0
  }

  function DaysInMonth(y: nat, m: nat): nat
    requires 1 <= m <= 12
  {
    if m == 2 then (if Leap(y) then 29 else 28)
    else if m == 4 || m == 6 || m == 9 || m == 11 then 30
    else 31
  }

  /** The moments a Python `datetime` can hold. */
  predicate ValidMoment(t: Moment) {
    1 <= t.year <= 9999 && 1 <= t.month <= 12 && 1 <= t.day <= DaysInMonth(t.year, t.month)
    && t.hour < 24 && t.minute < 60 && t.second < 60
  }

  predicate IsDigit(c: char) {
    '0' <= c <= '9'
  }

  predicate AllDigits(s: string) {
    forall i :: 0 <= i < |s| ==> IsDigit(s[i])
  }

  function Pow10(w: nat): (p: nat)
    ensures p >= 1
  {
    if w == 0 then 1 else 10 * Pow10(w - 1)
  }

  /** The last `w` decimal digits of `n`, zero-padded on the left. */
  function Digits(n: nat, w: nat): (r: string)
    ensures |r| == w && AllDigits(r)
  {
    if w == 0 then []
    else Digits(n / 10, w - 1) + [('0' as int + n % 10) as char]
  }

  /** The number a string of decimal digits spells. */
  function Value(s: string): nat
    requires AllDigits(s)
  {
    if |s| == 0 then 0
    else Value(s[..|s| - 1]) * 10 + (s[|s| - 1] as int - '0' as int)
  }

  /** Zero-padded printing is undone by reading the digits back. */
  lemma {:induction false} ValueDigits(n: nat, w: nat)
    requires n < Pow10(w)
    ensures Value(Digits(n, w)) == n
  {
    if w > 0 {
      var d := Digits(n / 10, w - 1);
      assert n / 10 < Pow10(w - 1);
      ValueDigits(n / 10, w - 1);
      assert Digits(n, w)[..|Digits(n, w)| - 1] == d;
    }
  }

  /** `%Y-%m-%d %H:%M:%S` */
  function ProcessingStamp(t: Moment): (r: string)
    ensures |r| == 19
  {
    Digits(t.year, 4) + "-" + Digits(t.month, 2) + "-" + Digits(t.day, 2) + " "
    + Digits(t.hour, 2) + ":" + Digits(t.minute, 2) + ":" + Digits(t.second, 2)
  }

  /** `%Y%m%d_%H%M%S` */
  function FileStamp(t: Moment): (r: string)
    ensures |r| == 15
  {
    Digits(t.year, 4) + Digits(t.month, 2) + Digits(t.day, 2) + "_"
    + Digits(t.hour, 2) + Digits(t.minute, 2) + Digits(t.second, 2)
  }

  /** The number in `s[lo..hi]`, or `None` when that slice is not all digits. */
  function Field(s: string, lo: nat, hi: nat): Option<nat>
    requires lo <= hi <= |s|
  {
    if AllDigits(s[lo..hi]) then Some(Value(s[lo..hi])) else None
  }

  /** Reads a `%Y-%m-%d %H:%M:%S` stamp back (no calendar check). */
  function ParseProcessingStamp(s: string): Option<Moment> {
    if |s| != 19 || s[4] != '-' || s[7] != '-' || s[10] != ' ' || s[13] != ':' || s[16] != ':' then None
    else Fields(s, [0, 5, 8, 11, 14, 17])
  }

  /** Reads a `%Y%m%d_%H%M%S` stamp back (no calendar check). */
  function ParseFileStamp(s: string): Option<Moment> {
    if |s| != 15 || s[8] != '_' then None
    else Fields(s, [0, 4, 6, 9, 11, 13])
  }

  /** The six fields starting at the given offsets: four digits of year, then
      two digits for each of the rest. */
  function Fields(s: string, at: seq<nat>): Option<Moment>
    requires |at| == 6 && at[0] + 4 <= |s|
    requires forall i :: 1 <= i < 6 ==> at[i] + 2 <= |s|
  {
    match (Field(s, at[0], at[0] + 4), Field(s, at[1], at[1] + 2), Field(s, at[2], at[2] + 2),
           Field(s, at[3], at[3] + 2), Field(s, at[4], at[4] + 2), Field(s, at[5], at[5] + 2))
    case (Some(y), Some(mo), Some(d), Some(h), Some(mi), Some(sec)) => Some(Moment(y, mo, d, h, mi, sec))
    case _ => None
  }

  lemma FieldsInRange(t: Moment)
    requires ValidMoment(t)
    ensures t.year < Pow10(4) && t.month < Pow10(2) && t.day < Pow10(2)
    ensures t.hour < Pow10(2) && t.minute < Pow10(2) && t.second < Pow10(2)
  {
    assert Pow10(2) == 100;
    assert Pow10(4) == 10000;
  }

  /** The field of `s` at `lo` is the printed number `n`. */
  lemma FieldAt(s: string, lo: nat, n: nat, w: nat)
    requires lo + w <= |s| && s[lo..lo + w] == Digits(n, w) && n < Pow10(w)
    ensures Field(s, lo, lo + w) == Some(n)
  {
    ValueDigits(n, w);
  }

  /** Six fields that read as the parts of `t` make up `t`. */
  lemma FieldsAre(s: string, at: seq<nat>, t: Moment)
    requires |at| == 6 && at[0] + 4 <= |s|
    requires forall i :: 1 <= i < 6 ==> at[i] + 2 <= |s|
    requires Field(s, at[0], at[0] + 4) == Some(t.year) && Field(s, at[1], at[1] + 2) == Some(t.month)
    requires Field(s, at[2], at[2] + 2) == Some(t.day) && Field(s, at[3], at[3] + 2) == Some(t.hour)
    requires Field(s, at[4], at[4] + 2) == Some(t.minute) && Field(s, at[5], at[5] + 2) == Some(t.second)
    ensures Fields(s, at) == Some(t)
  {
  }

  /** Where the six printed fields sit in a `%Y-%m-%d %H:%M:%S` stamp. */
  lemma ProcessingLayout(y: string, mo: string, d: string, h: string, mi: string, sc: string)
    requires |y| == 4 && |mo| == 2 && |d| == 2 && |h| == 2 && |mi| == 2 && |sc| == 2
    ensures var s := y + "-" + mo + "-" + d + " " + h + ":" + mi + ":" + sc;
      && s[0..4] == y && s[5..7] == mo && s[8..10] == d && s[11..13] == h && s[14..16] == mi && s[17..19] == sc
      && s[4] == '-' && s[7] == '-' && s[10] == ' ' && s[13] == ':' && s[16] == ':'
  {
  }

  /** Where the six printed fields sit in a `%Y%m%d_%H%M%S` stamp. */
  lemma FileLayout(y: string, mo: string, d: string, h: string, mi: string, sc: string)
    requires |y| == 4 && |mo| == 2 && |d| == 2 && |h| == 2 && |mi| == 2 && |sc| == 2
    ensures var s := y + mo + d + "_" + h + mi + sc;
      && s[0..4] == y && s[4..6] == mo && s[6..8] == d && s[9..11] == h && s[11..13] == mi && s[13..15] == sc
      && s[8] == '_'
  {
  }

  /** Parsing a printed processing stamp gives the moment back, so two
      different moments never print the same stamp. */
  lemma ProcessingStampRoundTrip(t: Moment)
    requires ValidMoment(t)
    ensures ParseProcessingStamp(ProcessingStamp(t)) == Some(t)
  {
    var s := ProcessingStamp(t);
    FieldsInRange(t);
    ProcessingLayout(Digits(t.year, 4), Digits(t.month, 2), Digits(t.day, 2),
                     Digits(t.hour, 2), Digits(t.minute, 2), Digits(t.second, 2));
    FieldAt(s, 0, t.year, 4);
    FieldAt(s, 5, t.month, 2);
    FieldAt(s, 8, t.day, 2);
    FieldAt(s, 11, t.hour, 2);
    FieldAt(s, 14, t.minute, 2);
    FieldAt(s, 17, t.second, 2);
    FieldsAre(s, [0, 5, 8, 11, 14, 17], t);
  }

  /** Parsing a printed file stamp gives the moment back. */
  lemma FileStampRoundTrip(t: Moment)
    requires ValidMoment(t)
    ensures ParseFileStamp(FileStamp(t)) == Some(t)
  {
    var s := FileStamp(t);
    FieldsInRange(t);
    FileLayout(Digits(t.year, 4), Digits(t.month, 2), Digits(t.day, 2),
               Digits(t.hour, 2), Digits(t.minute, 2), Digits(t.second, 2));
    FieldAt(s, 0, t.year, 4);
    FieldAt(s, 4, t.month, 2);
    FieldAt(s, 6, t.day, 2);
    FieldAt(s, 9, t.hour, 2);
    FieldAt(s, 11, t.minute, 2);
    FieldAt(s, 13, t.second, 2);
    FieldsAre(s, [0, 4, 6, 9, 11, 13], t);
  }
}

=== FILE: consolidation.dfy ===
/** The engine of `src/processor.py`: validate the paths, read and transform
    each valid file with per-file error capture, concatenate, optionally drop
    repeated rows, report; then name and save the result. The clock is a
    parameter: `clock(k)` is the moment at which the `k`-th valid file is
    transformed. */
module Consolidation {
  import opened Results
  import opened Text
  import opened Seqs
  import opened Tables
  import opened Clock
  import opened Files

  const DefaultOrigin: Column := "Archivo_Origen"
  const DefaultDate: Column := "Fecha_Procesamiento"

  /** The settings `configurar` stores. */
  datatype Config = Config(origin: Column, date: Column, ignore: seq<Column>, dropDuplicates: bool)

  /** The settings a fresh consolidator starts with. */
  const Initial: Config := Config(DefaultOrigin, DefaultDate, [], false)

  /** `configurar`: a missing (or empty) ignore list becomes the empty list. */
  function Configure(origin: Column, date: Column, ignore: Option<seq<Column>>, dropDuplicates: bool): (c: Config)
    ensures c.origin == origin && c.date == date && c.dropDuplicates == dropDuplicates
    ensures c.ignore == [] <==> ignore == None || ignore == Some([])
    ensures ignore.Some? ==> c.ignore == ignore.value
  {
    Config(origin, date, if ignore.Some? then ignore.value else [], dropDuplicates)
  }

  // ------------------------------------------------------------ one file

  /** What happened to one valid file. */
  datatype Outcome = Processed(path: Path, table: Table, removed: seq<Column>) | Failed(path: Path, message: string)

  function ProcessError(path: Path, message: string): string {
    "Error procesando " + path + ": " + message
  }

  /** The body of the per-file `try`: read, then transform; any exception
      becomes a failure that names the file. */
  function ProcessFile(disk: Disk, cfg: Config, path: Path, now: Moment): (o: Outcome)
    ensures o.path == path
    ensures o.Failed? ==> StartsWith(o.message, "Error procesando " + path + ": ")
    ensures o.Processed? <==> (ReadFile(disk, path).Ok?
      && Transform(ReadFile(disk, path).value, path, cfg.ignore, cfg.origin, cfg.date, now).Ok?)
    ensures o.Processed? ==> (
      var t := ReadFile(disk, path).value;
      && |o.table.rows| == |t.rows|
      && o.table.columns == Without([cfg.origin, cfg.date] + t.columns, cfg.ignore)
      && o.removed == DropDuplicates(Within(cfg.ignore, [cfg.origin, cfg.date] + t.columns)))
  {
    match ReadFile(disk, path)
    case Err(e) => Failed(path, ProcessError(path, e))
    case Ok(t) =>
      match Transform(t, path, cfg.ignore, cfg.origin, cfg.date, now)
      case Err(e) => Failed(path, ProcessError(path, e))
      case Ok(d) => Processed(path, d.table, d.removed)
  }

  /** A file that already has a column named like a metadata column is a
      per-file error and contributes nothing to the result. */
  lemma MetadataClashFails(disk: Disk, cfg: Config, path: Path, now: Moment)
    requires ReadFile(disk, path).Ok?
    requires cfg.origin in ReadFile(disk, path).value.columns || cfg.date in ReadFile(disk, path).value.columns
    ensures ProcessFile(disk, cfg, path, now)
      == Failed(path, ProcessError(path, InsertClash(
           if cfg.origin in ReadFile(disk, path).value.columns then cfg.origin else cfg.date)))
  {
  }

  /** Without an ignore list (`None`, as `or []` reads it), a processed file
      keeps every column it was read with, behind the two metadata columns,
      and reports nothing removed. */
  lemma NoIgnoreKeepsAll(disk: Disk, origin: Column, date: Column, drop: bool, path: Path, now: Moment)
    requires ProcessFile(disk, Configure(origin, date, None, drop), path, now).Processed?
    ensures var o := ProcessFile(disk, Configure(origin, date, None, drop), path, now);
      && o.table.columns == [origin, date] + ReadFile(disk, path).value.columns
      && o.removed == []
  {
    var cols := [origin, date] + ReadFile(disk, path).value.columns;
    FilterKeepsAll(cols, x => x !in []);
    var w := Within([], cols);
    assert w == [];
  }

  /** The loop over the valid files, in order. */
  function ProcessAll(disk: Disk, cfg: Config, paths: seq<Path>, clock: nat -> Moment): (os: seq<Outcome>)
    ensures |os| == |paths|
    ensures forall i :: 0 <= i < |paths| ==> os[i] == ProcessFile(disk, cfg, paths[i], clock(i))
    ensures forall o :: o in os ==> o.path in paths
  {
    seq(|paths|, i requires 0 <= i < |paths| => ProcessFile(disk, cfg, paths[i], clock(i)))
  }

  predicate IsProcessed(o: Outcome) {
    o.Processed?
  }

  function TableOf(o: Outcome): Table
    requires o.Processed?
  {
    o.table
  }

  function PathOf(o: Outcome): Path {
    o.path
  }

  function MessageOf(o: Outcome): string
    requires o.Failed?
  {
    o.message
  }

  /** The paths of the processed files, in order. */
  function ProcessedPaths(os: seq<Outcome>): (ps: seq<Path>)
    ensures |ps| == |Filter(os, IsProcessed)|
    ensures forall p :: p in ps <==> exists o :: o in os && o.Processed? && o.path == p
  {
    var done := Filter(os, IsProcessed);
    var ps := Map(done, PathOf);
    forall p
      ensures p in ps <==> exists o :: o in os && o.Processed? && o.path == p
    {
      if p in ps {
        var k :| 0 <= k < |done| && ps[k] == p;
        assert done[k] in done;
      }
      if o :| o in os && o.Processed? && o.path == p {
        assert o in done;
        var k :| 0 <= k < |done| && done[k] == o;
        assert ps[k] == p;
      }
    }
    ps
  }

  function TablesOf(os: seq<Outcome>): (ts: seq<Table>)
    ensures |ts| == |Filter(os, IsProcessed)|
  {
    var done := Filter(os, IsProcessed);
    seq(|done|, i requires 0 <= i < |done| => (assert done[i] in done; done[i].table))
  }

  /** The position, among all outcomes, of the file a gathered table came from. */
  function SourceOf(os: seq<Outcome>, k: nat): (i: nat)
    requires k < |TablesOf(os)|
    ensures i < |os| && os[i].Processed? && os[i].table == TablesOf(os)[k]
  {
    var done := Filter(os, IsProcessed);
    assert done[k] in done;
    IndexOf(os, done[k])
  }

  function ErrorsOf(os: seq<Outcome>): (es: seq<string>)
    ensures |es| == |Filter(os, Not(IsProcessed))|
  {
    var failed := Filter(os, Not(IsProcessed));
    seq(|failed|, i requires 0 <= i < |failed| => (assert failed[i] in failed; failed[i].message))
  }

  /** The positions of the outcomes `p` accepts, in order. */
  function PositionsOf(os: seq<Outcome>, p: Outcome -> bool): (idx: seq<nat>)
    ensures Positions(os, p, idx)
  {
    if |os| == 0 then []
    else
      var init := os[..|os| - 1];
      var x := os[|os| - 1];
      var idx0 := PositionsOf(init, p);
      assert os == init + [x];
      PositionsExtend(init, x, p, idx0);
      if p(x) then idx0 + [|os| - 1] else idx0
  }

  /** `idx` lists, in increasing order, exactly the positions of the outcomes
      `p` accepts, and the `j`-th of them holds the `j`-th accepted outcome. */
  predicate Positions(os: seq<Outcome>, p: Outcome -> bool, idx: seq<nat>) {
    && |idx| == |Filter(os, p)|
    && (forall j :: 0 <= j < |idx| ==> idx[j] < |os| && os[idx[j]] == Filter(os, p)[j])
    && (forall a, b :: 0 <= a < b < |idx| ==> idx[a] < idx[b])
    && (forall i :: 0 <= i < |os| && p(os[i]) ==> i in idx)
  }

  /** One more outcome adds its position when `p` accepts it. */
  lemma PositionsExtend(init: seq<Outcome>, x: Outcome, p: Outcome -> bool, idx0: seq<nat>)
    requires Positions(init, p, idx0)
    ensures Positions(init + [x], p, if p(x) then idx0 + [|init|] else idx0)
  {
    FilterAppend(init, x, p);
    if p(x) {
      PositionsAccepted(init, x, p, idx0);
    } else {
      PositionsSkipped(init, x, p, idx0);
    }
  }

  lemma PositionsAccepted(init: seq<Outcome>, x: Outcome, p: Outcome -> bool, idx0: seq<nat>)
    requires Positions(init, p, idx0) && p(x)
    requires Filter(init + [x], p) == Filter(init, p) + [x]
    ensures Positions(init + [x], p, idx0 + [|init|])
  {
    AcceptedAt(init, x, p, idx0);
    AcceptedIncreasing(init, x, p, idx0);
    AcceptedComplete(init, x, p, idx0);
  }

  lemma AcceptedAt(init: seq<Outcome>, x: Outcome, p: Outcome -> bool, idx0: seq<nat>)
    requires Positions(init, p, idx0)
    ensures var os, idx, f := init + [x], idx0 + [|init|], Filter(init, p) + [x];
      forall j :: 0 <= j < |idx| ==> idx[j] < |os| && os[idx[j]] == f[j]
  {
    var os, idx, f := init + [x], idx0 + [|init|], Filter(init, p) + [x];
    forall j | 0 <= j < |idx|
      ensures idx[j] < |os| && os[idx[j]] == f[j]
    {
      if j < |idx0| {
        assert os[idx0[j]] == init[idx0[j]];
      }
    }
  }

  lemma AcceptedIncreasing(init: seq<Outcome>, x: Outcome, p: Outcome -> bool, idx0: seq<nat>)
    requires Positions(init, p, idx0)
    ensures var idx := idx0 + [|init|];
      forall a, b :: 0 <= a < b < |idx| ==> idx[a] < idx[b]
  {
    var idx := idx0 + [|init|];
    forall a, b | 0 <= a < b < |idx|
      ensures idx[a] < idx[b]
    {
      assert idx[a] == idx0[a];
    }
  }

  lemma AcceptedComplete(init: seq<Outcome>, x: Outcome, p: Outcome -> bool, idx0: seq<nat>)
    requires Positions(init, p, idx0)
    ensures var os, idx := init + [x], idx0 + [|init|];
      forall i :: 0 <= i < |os| && p(os[i]) ==> i in idx
  {
    var os, idx := init + [x], idx0 + [|init|];
    forall i | 0 <= i < |os| && p(os[i])
      ensures i in idx
    {
      if i < |init| {
        assert init[i] == os[i];
        assert i in idx0;
        var k :| 0 <= k < |idx0| && idx0[k] == i;
        assert idx[k] == i;
      } else {
        assert idx[|idx0|] == i;
      }
    }
  }

  lemma PositionsSkipped(init: seq<Outcome>, x: Outcome, p: Outcome -> bool, idx0: seq<nat>)
    requires Positions(init, p, idx0) && !p(x)
    requires Filter(init + [x], p) == Filter(init, p)
    ensures Positions(init + [x], p, idx0)
  {
    var os := init + [x];
    assert forall j :: 0 <= j < |idx0| ==> os[idx0[j]] == init[idx0[j]];
    assert forall i :: 0 <= i < |os| && p(os[i]) ==> i in idx0 by {
      forall i | 0 <= i < |os| && p(os[i])
        ensures i in idx0
      {
        assert init[i] == os[i];
      }
    }
  }

  /** `columnas_eliminadas_por_archivo`: keyed by basename, so a later file
      with the same basename replaces the entry of an earlier one. */
  function RemovedByFile(os: seq<Outcome>): (m: map<string, seq<Column>>)
    ensures forall o :: o in os && o.Processed? ==> Basename(o.path) in m
  {
    if |os| == 0 then map[]
    else
      var init := os[..|os| - 1];
      var m := RemovedByFile(init);
      assert forall o :: o in os ==> o in init || o == os[|os| - 1];
      match os[|os| - 1]
      case Processed(p, _, removed) => m[Basename(p) := removed]
      case Failed(_, _) => m
  }

  /** Only processed files have an entry. */
  lemma {:induction false} RemovedByFileKeys(os: seq<Outcome>)
    ensures forall k :: k in RemovedByFile(os) ==> exists o :: o in os && o.Processed? && Basename(o.path) == k
  {
    if |os| > 0 {
      var init := os[..|os| - 1];
      RemovedByFileKeys(init);
      assert forall o :: o in init ==> o in os;
    }
  }

  /** The entry of a basename holds the removed list of the last processed
      file with that basename. */
  lemma {:induction false} RemovedByFileLastWins(os: seq<Outcome>, i: nat)
    requires i < |os| && os[i].Processed?
    requires forall j :: i < j < |os| && os[j].Processed? ==> Basename(os[j].path) != Basename(os[i].path)
    ensures RemovedByFile(os)[Basename(os[i].path)] == os[i].removed
  {
    var n := |os|;
    var init := os[..n - 1];
    if i < n - 1 {
      assert init[i] == os[i];
      RemovedByFileLastWins(init, i);
    }
  }

  // ----------------------------------------------------------------- engine

  /** The successful result of `procesar_archivos`. */
  datatype Report = Report(
    table: Table,
    processed: seq<Path>,
    errors: seq<string>,
    invalid: seq<string>,
    removedByFile: map<string, seq<Column>>,
    duplicatesRemoved: nat,
    summary: Summary,
    duplicates: DuplicateReport)

  /** `procesar_archivos`: `exito` is `Consolidated?`; the two failures carry
      the invalid-path messages and the per-file errors respectively. */
  datatype RunResult = NoValidFiles(invalid: seq<string>) | NothingProcessed(errors: seq<string>) | Consolidated(report: Report)

  /** The `error` text of a failed run. */
  function RunError(r: RunResult): string
    requires !r.Consolidated?
  {
    if r.NoValidFiles? then "No hay archivos válidos para procesar"
    else "No se pudo procesar ningún archivo válido"
  }

  /** The per-file error messages of a run that tried at least one file:
      `errores` in either shape of the result. */
  function FileErrors(r: RunResult): seq<string>
    requires !r.NoValidFiles?
  {
    if r.NothingProcessed? then r.errors else r.report.errors
  }

  /** `drop_duplicates()` on the rows when requested. A table without
      columns is `empty` to pandas, which then returns it unchanged. */
  function Deduplicate(t: Table, drop: bool): (u: Table)
    ensures u.columns == t.columns
    ensures !drop || |t.columns| == 0 ==> u == t
    ensures drop && |t.columns| > 0 ==> NoDup(u.rows) && (forall r :: r in u.rows <==> r in t.rows)
    ensures drop && |t.columns| > 0 ==> |u.rows| + |Repeats(t.rows)| == |t.rows|
  {
    DropDuplicatesCount(t.rows);
    if drop && |t.columns| > 0 then Table(t.columns, DropDuplicates(t.rows)) else t
  }

  /** Everything after the per-file loop: give up when no file was processed,
      otherwise concatenate, deduplicate and report. */
  function Gather(os: seq<Outcome>, invalid: seq<string>, drop: bool): RunResult {
    var done := Filter(os, IsProcessed);
    if |done| == 0 then NothingProcessed(ErrorsOf(os))
    else
      var merged := Concat(TablesOf(os));
      var final := Deduplicate(merged, drop);
      var processed := ProcessedPaths(os);
      Consolidated(Report(
        final, processed, ErrorsOf(os), invalid, RemovedByFile(os),
        |merged.rows| - |final.rows|, Summarize(final, processed), DetectDuplicates(final)))
  }

  /** `procesar_archivos`: stop when no path is valid; otherwise every valid
      file is tried, and the run fails only when none of them was processed. */
  function Run(disk: Disk, cfg: Config, paths: seq<Path>, clock: nat -> Moment): (r: RunResult)
    ensures var v := Validate(disk.entry, paths);
      && (r.NoValidFiles? <==> |v.valid| == 0)
      && (r.NoValidFiles? ==> r.invalid == Messages(v))
      && (r.NothingProcessed? ==> |r.errors| == |v.valid|)
      && (r.Consolidated? ==> r.report.invalid == Messages(v) && |r.report.processed| + |r.report.errors| == |v.valid|)
  {
    var v := Validate(disk.entry, paths);
    if |v.valid| == 0 then NoValidFiles(Messages(v))
    else
      var os := ProcessAll(disk, cfg, v.valid, clock);
      FilterPartition(os, IsProcessed);
      Gather(os, Messages(v), cfg.dropDuplicates)
  }

  /** With no valid path the run fails with the invalid-path messages, and no
      file is read: the result depends on the entries alone. */
  lemma NoValidFilesReadsNothing(d1: Disk, d2: Disk, cfg: Config, paths: seq<Path>, clock: nat -> Moment)
    requires d1.entry == d2.entry
    requires forall p :: p in paths ==> !Accepted(d1.entry, p)
    ensures Run(d1, cfg, paths, clock) == Run(d2, cfg, paths, clock)
      == NoValidFiles(Messages(Validate(d1.entry, paths)))
  {
    NoneAccepted(d1.entry, paths);
  }

  lemma NoneAccepted(entry: Path -> Entry, paths: seq<Path>)
    requires forall p :: p in paths ==> !Accepted(entry, p)
    ensures Validate(entry, paths).valid == []
  {
    forall p | p in paths
      ensures Not(AcceptedBy(entry))(p)
    {
    }
    FilterKeepsAll(paths, Not(AcceptedBy(entry)));
    FilterPartition(paths, AcceptedBy(entry));
  }

  /** A valid path is never reported invalid, and a run fails for want of
      valid files exactly when no path is a supported regular file. */
  lemma NoValidFilesExactly(disk: Disk, cfg: Config, paths: seq<Path>, clock: nat -> Moment)
    ensures Run(disk, cfg, paths, clock).NoValidFiles? <==> forall p :: p in paths ==> !Accepted(disk.entry, p)
  {
    var v := Validate(disk.entry, paths);
    if |v.valid| > 0 {
      assert v.valid[0] in v.valid;
    }
  }

  /** Processed files and errors split the outcomes. */
  lemma GatherPartition(os: seq<Outcome>, invalid: seq<string>, drop: bool)
    requires Gather(os, invalid, drop).Consolidated?
    ensures var r := Gather(os, invalid, drop).report;
      && |r.processed| + |r.errors| == |os|
      && (forall p :: p in r.processed <==> exists o :: o in os && o.Processed? && o.path == p)
      && r.invalid == invalid
  {
    FilterPartition(os, IsProcessed);
  }

  /** The summary names each processed file by its basename, and those
      names are exactly the keys of the removed-columns report. */
  lemma SummaryNamesAreRemovedKeys(os: seq<Outcome>, invalid: seq<string>, drop: bool)
    requires Gather(os, invalid, drop).Consolidated?
    ensures var r := Gather(os, invalid, drop).report;
      && |r.summary.names| == |r.processed|
      && (forall j :: 0 <= j < |r.processed| ==> r.summary.names[j] == Basename(r.processed[j]))
      && (forall k :: k in r.removedByFile <==> k in r.summary.names)
  {
    var r := Gather(os, invalid, drop).report;
    assert r.processed == ProcessedPaths(os) && r.removedByFile == RemovedByFile(os);
    assert r.summary == Summarize(r.table, r.processed);
    SummaryNames(r.table, r.processed);
    NamesAreKeys(os);
  }

  /** The names of a summary are the basenames of the files, in order. */
  lemma SummaryNames(t: Table, processed: seq<Path>)
    ensures Summarize(t, processed).names == Map(processed, Basename)
  {
    var s := Summarize(t, processed);
    forall j | 0 <= j < |processed|
      ensures s.names[j] == Basename(processed[j])
    {
      BasenameUnique(processed[j], s.names[j]);
    }
  }

  lemma NamesAreKeys(os: seq<Outcome>)
    ensures forall k :: k in RemovedByFile(os) <==> k in Map(ProcessedPaths(os), Basename)
  {
    forall k
      ensures k in RemovedByFile(os) <==> k in Map(ProcessedPaths(os), Basename)
    {
      if k in RemovedByFile(os) {
        KeyIsName(os, k);
      }
      if k in Map(ProcessedPaths(os), Basename) {
        NameIsKey(os, k);
      }
    }
  }

  lemma KeyIsName(os: seq<Outcome>, k: string)
    requires k in RemovedByFile(os)
    ensures k in Map(ProcessedPaths(os), Basename)
  {
    RemovedByFileKeys(os);
    var o :| o in os && o.Processed? && Basename(o.path) == k;
    ProcessedName(os, o);
  }

  lemma ProcessedName(os: seq<Outcome>, o: Outcome)
    requires o in os && o.Processed?
    ensures Basename(o.path) in Map(ProcessedPaths(os), Basename)
  {
    var ps := ProcessedPaths(os);
    assert o.path in ps;
    var j :| 0 <= j < |ps| && ps[j] == o.path;
    var names := Map(ps, Basename);
    assert names[j] == Basename(o.path);
  }

  lemma NameIsKey(os: seq<Outcome>, k: string)
    requires k in Map(ProcessedPaths(os), Basename)
    ensures k in RemovedByFile(os)
  {
    var ps := ProcessedPaths(os);
    var j :| 0 <= j < |ps| && Map(ps, Basename)[j] == k;
    assert ps[j] in ps;
    var o :| o in os && o.Processed? && o.path == ps[j];
  }

  /** Each valid file ends up either processed or among the errors; every
      path is valid or reported invalid; the processed files keep the order
      of the valid files. */
  lemma RunPartition(disk: Disk, cfg: Config, paths: seq<Path>, clock: nat -> Moment)
    requires Run(disk, cfg, paths, clock).Consolidated?
    ensures var r := Run(disk, cfg, paths, clock).report;
      var valid := Validate(disk.entry, paths).valid;
      && |r.processed| + |r.errors| == |valid|
      && (forall p :: p in r.processed ==> p in valid && Accepted(disk.entry, p))
      && |r.invalid| + |valid| == |paths|
      && SubsequenceOf(r.processed, valid)
  {
    var v := Validate(disk.entry, paths);
    var os := ProcessAll(disk, cfg, v.valid, clock);
    assert Run(disk, cfg, paths, clock) == Gather(os, Messages(v), cfg.dropDuplicates);
    GatherPartition(os, Messages(v), cfg.dropDuplicates);
    FilterPartition(paths, AcceptedBy(disk.entry));
    var r := Gather(os, Messages(v), cfg.dropDuplicates).report;
    forall p | p in r.processed
      ensures p in v.valid && Accepted(disk.entry, p)
    {
      var o :| o in os && o.Processed? && o.path == p;
      assert p in v.valid;
      assert AcceptedBy(disk.entry)(p);
    }
    ProcessedInOrder(disk, cfg, v.valid, clock);
  }

  /** The errors of a run that tried at least one file, whether it failed
      or consolidated, one per valid file whose processing failed: `failed`
      holds the positions of exactly those files among the valid files, in
      their order, and the `j`-th error names the file at `failed[j]`. */
  lemma RunErrors(disk: Disk, cfg: Config, paths: seq<Path>, clock: nat -> Moment) returns (failed: seq<nat>)
    requires |Validate(disk.entry, paths).valid| > 0
    ensures var errors := FileErrors(Run(disk, cfg, paths, clock));
      var valid := Validate(disk.entry, paths).valid;
      && |failed| == |errors|
      && (forall a, b :: 0 <= a < b < |failed| ==> failed[a] < failed[b])
      && (forall j :: 0 <= j < |failed| ==>
           && failed[j] < |valid|
           && ProcessFile(disk, cfg, valid[failed[j]], clock(failed[j])).Failed?
           && StartsWith(errors[j], "Error procesando " + valid[failed[j]] + ": "))
      && (forall i :: 0 <= i < |valid| && ProcessFile(disk, cfg, valid[i], clock(i)).Failed? ==> i in failed)
  {
    var v := Validate(disk.entry, paths);
    var os := ProcessAll(disk, cfg, v.valid, clock);
    assert Run(disk, cfg, paths, clock) == Gather(os, Messages(v), cfg.dropDuplicates);
    assert FileErrors(Gather(os, Messages(v), cfg.dropDuplicates)) == ErrorsOf(os);
    ProcessAllErrors(disk, cfg, v.valid, clock);
    failed := PositionsOf(os, Not(IsProcessed));
  }

  /** The processed files of a consolidated run: `done` holds the positions,
      among the valid files and in their order, of exactly those whose
      processing succeeded, and the `j`-th processed path is the file at
      `done[j]`. */
  lemma RunProcessed(disk: Disk, cfg: Config, paths: seq<Path>, clock: nat -> Moment) returns (done: seq<nat>)
    requires Run(disk, cfg, paths, clock).Consolidated?
    ensures var r := Run(disk, cfg, paths, clock).report;
      var valid := Validate(disk.entry, paths).valid;
      && |done| == |r.processed|
      && (forall a, b :: 0 <= a < b < |done| ==> done[a] < done[b])
      && (forall j :: 0 <= j < |done| ==>
           && done[j] < |valid|
           && r.processed[j] == valid[done[j]]
           && ProcessFile(disk, cfg, valid[done[j]], clock(done[j])).Processed?)
      && (forall i :: 0 <= i < |valid| && ProcessFile(disk, cfg, valid[i], clock(i)).Processed? ==> i in done)
  {
    var v := Validate(disk.entry, paths);
    var os := ProcessAll(disk, cfg, v.valid, clock);
    assert Run(disk, cfg, paths, clock).report.processed == ProcessedPaths(os);
    ProcessAllDone(disk, cfg, v.valid, clock);
    done := PositionsOf(os, IsProcessed);
  }

  lemma ProcessAllDone(disk: Disk, cfg: Config, paths: seq<Path>, clock: nat -> Moment)
    ensures var os := ProcessAll(disk, cfg, paths, clock);
      var done := PositionsOf(os, IsProcessed);
      && |done| == |ProcessedPaths(os)|
      && (forall j :: 0 <= j < |done| ==>
           && done[j] < |paths|
           && ProcessedPaths(os)[j] == paths[done[j]]
           && ProcessFile(disk, cfg, paths[done[j]], clock(done[j])).Processed?)
      && (forall i :: 0 <= i < |paths| && ProcessFile(disk, cfg, paths[i], clock(i)).Processed? ==> i in done)
  {
    var os := ProcessAll(disk, cfg, paths, clock);
    var done := PositionsOf(os, IsProcessed);
    var kept := Filter(os, IsProcessed);
    forall j | 0 <= j < |done|
      ensures done[j] < |paths|
      ensures ProcessedPaths(os)[j] == paths[done[j]]
      ensures ProcessFile(disk, cfg, paths[done[j]], clock(done[j])).Processed?
    {
      assert os[done[j]] == kept[j];
      assert kept[j] in kept;
      assert ProcessedPaths(os)[j] == kept[j].path;
    }
    forall i | 0 <= i < |paths| && ProcessFile(disk, cfg, paths[i], clock(i)).Processed?
      ensures i in done
    {
      assert os[i] == ProcessFile(disk, cfg, paths[i], clock(i));
      assert IsProcessed(os[i]);
    }
  }

  lemma ProcessAllErrors(disk: Disk, cfg: Config, paths: seq<Path>, clock: nat -> Moment)
    ensures var os := ProcessAll(disk, cfg, paths, clock);
      var failed := PositionsOf(os, Not(IsProcessed));
      && (forall j :: 0 <= j < |failed| ==>
           && failed[j] < |paths|
           && ProcessFile(disk, cfg, paths[failed[j]], clock(failed[j])).Failed?
           && StartsWith(ErrorsOf(os)[j], "Error procesando " + paths[failed[j]] + ": "))
      && (forall i :: 0 <= i < |paths| && ProcessFile(disk, cfg, paths[i], clock(i)).Failed? ==> i in failed)
  {
    var os := ProcessAll(disk, cfg, paths, clock);
    ErrorsAt(os);
    forall i | 0 <= i < |paths| && ProcessFile(disk, cfg, paths[i], clock(i)).Failed?
      ensures i in PositionsOf(os, Not(IsProcessed))
    {
      assert os[i] == ProcessFile(disk, cfg, paths[i], clock(i));
      assert !IsProcessed(os[i]);
    }
  }

  /** The processed paths are a subsequence of the paths processed. */
  lemma ProcessedInOrder(disk: Disk, cfg: Config, paths: seq<Path>, clock: nat -> Moment)
    ensures SubsequenceOf(ProcessedPaths(ProcessAll(disk, cfg, paths, clock)), paths)
  {
    var os := ProcessAll(disk, cfg, paths, clock);
    FilterSubsequence(os, IsProcessed);
    MapSubsequence(Filter(os, IsProcessed), os, PathOf);
    assert Map(os, PathOf) == paths;
  }

  /** The `j`-th error is the message of the `j`-th failed outcome. */
  lemma ErrorsAt(os: seq<Outcome>)
    ensures forall j :: 0 <= j < |PositionsOf(os, Not(IsProcessed))| ==>
      os[PositionsOf(os, Not(IsProcessed))[j]].Failed? && ErrorsOf(os)[j] == os[PositionsOf(os, Not(IsProcessed))[j]].message
  {
    var failed := Filter(os, Not(IsProcessed));
    var idx := PositionsOf(os, Not(IsProcessed));
    forall j | 0 <= j < |idx|
      ensures os[idx[j]].Failed? && ErrorsOf(os)[j] == os[idx[j]].message
    {
      assert os[idx[j]] == failed[j];
      assert failed[j] in failed;
      assert !IsProcessed(failed[j]);
    }
  }

  /** Every column of the consolidated table comes from a valid file that was
      processed, at its position among the valid files. */
  lemma ColumnSource(disk: Disk, cfg: Config, paths: seq<Path>, clock: nat -> Moment, c: Column)
    returns (i: nat)
    requires Run(disk, cfg, paths, clock).Consolidated?
    requires c in Run(disk, cfg, paths, clock).report.table.columns
    ensures var valid := Validate(disk.entry, paths).valid;
      && i < |valid| && valid[i] in paths
      && ProcessFile(disk, cfg, valid[i], clock(i)).Processed?
      && c in ProcessFile(disk, cfg, valid[i], clock(i)).table.columns
  {
    var v := Validate(disk.entry, paths);
    var os := ProcessAll(disk, cfg, v.valid, clock);
    assert Run(disk, cfg, paths, clock) == Gather(os, Messages(v), cfg.dropDuplicates);
    i := OutcomeSource(os, Messages(v), cfg.dropDuplicates, c);
    assert v.valid[i] in v.valid;
  }

  /** Every column of a gathered table comes from a processed outcome. */
  lemma OutcomeSource(os: seq<Outcome>, invalid: seq<string>, drop: bool, c: Column) returns (i: nat)
    requires Gather(os, invalid, drop).Consolidated?
    requires c in Gather(os, invalid, drop).report.table.columns
    ensures i < |os| && os[i].Processed? && c in os[i].table.columns
  {
    var ts := TablesOf(os);
    assert Gather(os, invalid, drop).report.table.columns == Concat(ts).columns;
    var k :| 0 <= k < |ts| && c in ts[k].columns;
    i := SourceOf(os, k);
  }

  /** When every valid file fails, the run fails with one error per file,
      in the order of the files, the `i`-th naming the `i`-th valid file. */
  lemma AllFilesFail(disk: Disk, cfg: Config, paths: seq<Path>, clock: nat -> Moment)
    requires |Validate(disk.entry, paths).valid| > 0
    requires forall i :: 0 <= i < |Validate(disk.entry, paths).valid| ==>
      ProcessFile(disk, cfg, Validate(disk.entry, paths).valid[i], clock(i)).Failed?
    ensures Run(disk, cfg, paths, clock).NothingProcessed?
    ensures var valid := Validate(disk.entry, paths).valid;
      var errors := Run(disk, cfg, paths, clock).errors;
      && |errors| == |valid|
      && forall i :: 0 <= i < |valid| ==> errors[i] == ProcessFile(disk, cfg, valid[i], clock(i)).message
  {
    var v := Validate(disk.entry, paths);
    var os := ProcessAll(disk, cfg, v.valid, clock);
    forall o | o in os
      ensures o.Failed?
    {
      var i :| 0 <= i < |os| && os[i] == o;
    }
    FailedErrors(os);
    FilterPartition(os, IsProcessed);
    assert Run(disk, cfg, paths, clock) == NothingProcessed(ErrorsOf(os));
  }

  /** When no outcome is processed, the errors are the messages of all of
      them, in order. */
  lemma FailedErrors(os: seq<Outcome>)
    requires forall o :: o in os ==> o.Failed?
    ensures |ErrorsOf(os)| == |os|
    ensures forall i :: 0 <= i < |os| ==> ErrorsOf(os)[i] == os[i].message
  {
    forall o | o in os
      ensures Not(IsProcessed)(o)
    {
      assert !IsProcessed(o);
    }
    FilterKeepsAll(os, Not(IsProcessed));
  }

  /** The rows an outcome contributes. */
  function RowsOf(o: Outcome): nat {
    if o.Processed? then |o.table.rows| else 0
  }

  /** The rows a processed file had when read. */
  function ReadRowsOf(disk: Disk): Outcome -> nat {
    (o: Outcome) => if o.Processed? && ReadFile(disk, o.path).Ok? then |ReadFile(disk, o.path).value.rows| else 0
  }

  /** The concatenation holds every row of every processed file. */
  lemma {:induction false} GatheredRows(os: seq<Outcome>)
    ensures TotalRows(TablesOf(os)) == Sum(os, RowsOf)
  {
    if |os| > 0 {
      var n := |os|;
      var init := os[..n - 1];
      var o := os[n - 1];
      GatheredRows(init);
      FilterAppend(init, o, IsProcessed);
      assert os == init + [o];
      var ts := TablesOf(os);
      var t0 := TablesOf(init);
      if o.Processed? {
        assert ts[..|ts| - 1] == t0;
      } else {
        assert ts == t0;
      }
    }
  }

  /** Row counts survive processing: every processed table holds as many
      rows as the file it came from. */
  lemma ProcessedRowsAsRead(disk: Disk, cfg: Config, valid: seq<Path>, clock: nat -> Moment)
    ensures var os := ProcessAll(disk, cfg, valid, clock);
      Sum(os, RowsOf) == Sum(os, ReadRowsOf(disk))
  {
    var os := ProcessAll(disk, cfg, valid, clock);
    forall o | o in os
      ensures RowsOf(o) == ReadRowsOf(disk)(o)
    {
      var i :| 0 <= i < |os| && os[i] == o;
      assert o == ProcessFile(disk, cfg, valid[i], clock(i));
    }
    SumPointwise(os, RowsOf, ReadRowsOf(disk));
  }

  /** The final table holds the rows of the processed files, less the
      repeats when deduplicating; the summary counts the final table. */
  lemma GatherRows(os: seq<Outcome>, invalid: seq<string>, drop: bool)
    requires Gather(os, invalid, drop).Consolidated?
    ensures var r := Gather(os, invalid, drop).report;
      && r.summary.records == |r.table.rows|
      && |r.table.rows| + r.duplicatesRemoved == Sum(os, RowsOf)
      && (!drop ==> r.duplicatesRemoved == 0)
  {
    GatheredRows(os);
  }

  /** Without deduplication the consolidated table has as many rows as the
      processed files had when read; with it, that many less the removed
      repeats. */
  lemma RowCount(disk: Disk, cfg: Config, paths: seq<Path>, clock: nat -> Moment)
    requires Run(disk, cfg, paths, clock).Consolidated?
    ensures var r := Run(disk, cfg, paths, clock).report;
      var os := ProcessAll(disk, cfg, Validate(disk.entry, paths).valid, clock);
      && r.summary.records == |r.table.rows|
      && |r.table.rows| + r.duplicatesRemoved == Sum(os, ReadRowsOf(disk))
      && (!cfg.dropDuplicates ==> r.duplicatesRemoved == 0)
  {
    var v := Validate(disk.entry, paths);
    var os := ProcessAll(disk, cfg, v.valid, clock);
    GatherRows(os, Messages(v), cfg.dropDuplicates);
    ProcessedRowsAsRead(disk, cfg, v.valid, clock);
  }

  /** With deduplication the report finds no repeated row afterwards. When
      the concatenation has columns, the number removed is the number of its
      repeats; without deduplication, or without columns, nothing is removed
      and the report finds nothing either. */
  lemma DeduplicationReport(os: seq<Outcome>, invalid: seq<string>, drop: bool)
    requires Gather(os, invalid, drop).Consolidated?
    ensures var r := Gather(os, invalid, drop).report;
      var merged := Concat(TablesOf(os));
      && (drop ==> !r.duplicates.found && r.duplicates.count == 0)
      && (drop && |merged.columns| > 0 ==> NoDup(r.table.rows) && r.duplicatesRemoved == |Repeats(merged.rows)|)
      && (!drop || |merged.columns| == 0 ==> r.duplicatesRemoved == 0 && r.table == merged)
      && (|merged.columns| == 0 ==> r.duplicates == DuplicateReport(false, 0, []))
  {
    var r := Gather(os, invalid, drop).report;
    if drop && |r.table.columns| > 0 {
      NoDupHasNoRepeats(r.table.rows);
    }
  }

  // ------------------------------------------------------------------ saving

  /** The result of `guardar_consolidado`. */
  datatype SaveResult =
    | Saved(path: Path, name: string, format: string, records: nat, columns: nat)
    | SaveFailed(message: string)

  const SaveFailedMessage: string := "Error al guardar el archivo"

  /** A non-empty custom name gets the lower-cased format as extension;
      otherwise the timestamped default name is used. */
  function ChooseName(format: string, custom: Option<string>, now: Moment): (name: string)
    ensures custom.Some? && custom.value != [] ==> name == custom.value + "." + Lower(format)
    ensures custom == None || custom == Some([]) ==> StartsWith(name, OutputPrefix)
  {
    if custom.Some? && custom.value != [] then custom.value + "." + Lower(format)
    else OutputName(format, now)
  }

  /** `guardar_consolidado`. `outDir` is the output directory, or the text of
      the exception raised while preparing it; `write` is the writer of
      `guardar_archivo`. */
  function SaveConsolidated(t: Table, format: string, custom: Option<string>, outDir: Result<Path>,
                            now: Moment, write: (Table, Path, Writer) -> bool): (r: SaveResult)
    ensures r.Saved? ==> Lower(format) == "csv" || Lower(format) == "xlsx"
    ensures r.Saved? ==> (
      && outDir.Ok? && r.name == ChooseName(format, custom, now)
      && r.path == JoinPath(outDir.value, r.name) && EndsWith(r.path, r.name)
      && r.records == |t.rows| && r.columns == |t.columns| && r.format == format)
    ensures outDir.Err? ==> r == SaveFailed(SaveFailedMessage + ": " + outDir.message)
    ensures outDir.Ok? && r.SaveFailed? ==> r.message == SaveFailedMessage
  {
    var name := ChooseName(format, custom, now);
    match outDir
    case Err(e) => SaveFailed(SaveFailedMessage + ": " + e)
    case Ok(dir) =>
      var path := JoinPath(dir, name);
      if SaveFile(t, path, format, write) then Saved(path, name, format, |t.rows|, |t.columns|)
      else SaveFailed(SaveFailedMessage)
  }

  /** An unknown format is never written, whatever the writer would do. */
  lemma UnknownFormatNotSaved(t: Table, format: string, custom: Option<string>, dir: Path,
                              now: Moment, write: (Table, Path, Writer) -> bool)
    requires Lower(format) != "csv" && Lower(format) != "xlsx"
    ensures SaveConsolidated(t, format, custom, Ok(dir), now, write) == SaveFailed(SaveFailedMessage)
  {
  }

  /** `procesar_y_guardar`: the processing result, plus `guardado` when it
      succeeded. */
  datatype Final = Final(run: RunResult, saved: Option<SaveResult>)

  function ProcessAndSave(disk: Disk, cfg: Config, paths: seq<Path>, clock: nat -> Moment,
                          format: string, custom: Option<string>, outDir: Result<Path>,
                          saveMoment: Moment, write: (Table, Path, Writer) -> bool): (f: Final)
    ensures f.saved.Some? <==> f.run.Consolidated?
    ensures f.saved.Some? ==>
      f.saved.value == SaveConsolidated(f.run.report.table, format, custom, outDir, saveMoment, write)
  {
    var run := Run(disk, cfg, paths, clock);
    if !run.Consolidated? then Final(run, None)
    else Final(run, Some(SaveConsolidated(run.report.table, format, custom, outDir, saveMoment, write)))
  }

  /** A failed run is returned unchanged with no save attempted, and saving
      changes nothing of the processing result: the outcome of the save (the
      output directory, the writer) never affects `exito` or any other field. */
  lemma SaveLeavesRunAlone(disk: Disk, cfg: Config, paths: seq<Path>, clock: nat -> Moment,
                           format: string, custom: Option<string>,
                           dir1: Result<Path>, dir2: Result<Path>, saveMoment: Moment,
                           w1: (Table, Path, Writer) -> bool, w2: (Table, Path, Writer) -> bool)
    ensures var f1 := ProcessAndSave(disk, cfg, paths, clock, format, custom, dir1, saveMoment, w1);
      var f2 := ProcessAndSave(disk, cfg, paths, clock, format, custom, dir2, saveMoment, w2);
      f1.run == f2.run == Run(disk, cfg, paths, clock)
      && (!f1.run.Consolidated? ==> f1 == Final(f1.run, None))
  {
  }
}

=== FILE: files.dfy ===
/** The file-level helpers of `src/utils.py`: path validation, reader dispatch
    with the CSV encoding chain, the per-file transform (two metadata columns in
    front, then the requested drops), saving, output naming, and the summary and
    duplicate reports. The file system and the pandas readers and writers are
    the `Disk` and writer parameters. */
module Files {
  import opened Results
  import opened Text
  import opened Seqs
  import opened Tables
  import opened Clock

  type Path = string

  /** What `os.path.exists` and `os.path.isfile` see at a path. */
  datatype Entry = Missing | Directory | RegularFile

  datatype Encoding = Utf8 | Latin1 | Cp1252 | Iso88591

  /** The reader a file is handed to: `read_excel` with openpyxl or xlrd,
      `read_csv` with an encoding, or the last-resort `read_csv` call. */
  datatype Engine = Openpyxl | Xlrd | Csv(encoding: Encoding) | CsvIgnoringErrors

  /** What one reader call gives: a value, a `UnicodeDecodeError`, or any other
      exception, each failure with the text of the exception. */
  datatype Attempt<+T> = Success(value: T) | DecodeFailure(message: string) | OtherFailure(message: string)

  /** The file system and the foreign readers: the kind of entry at a path, the
      full read of a path by an engine, and the header-only read (`nrows=0`). */
  datatype Disk = Disk(
    entry: Path -> Entry,
    load: (Path, Engine) -> Attempt<Table>,
    header: (Path, Engine) -> Attempt<seq<Column>>)

  /** The order in which CSV encodings are tried. */
  const CsvEncodings: seq<Encoding> := [Utf8, Latin1, Cp1252, Iso88591]

  /** The lower-cased basename ends in one of the accepted extensions. */
  predicate Supported(path: Path) {
    var name := Lower(Basename(path));
    EndsWith(name, ".csv") || EndsWith(name, ".xlsx") || EndsWith(name, ".xls")
  }

  /** At most one of the three extensions matches a name. */
  lemma SuffixesExclusive(name: string)
    ensures !(EndsWith(name, ".xlsx") && EndsWith(name, ".xls"))
    ensures !(EndsWith(name, ".xlsx") && EndsWith(name, ".csv"))
    ensures !(EndsWith(name, ".xls") && EndsWith(name, ".csv"))
  {
    if EndsWith(name, ".xlsx") {
      assert name[|name| - 1] == 'x';
      assert name[|name| - 2] == 's';
    }
    if EndsWith(name, ".xls") {
      assert name[|name| - 1] == 's';
      assert name[|name| - 2] == 'l';
    }
    if EndsWith(name, ".csv") {
      assert name[|name| - 1] == 'v';
    }
  }

  /** A path and its basename end in the same accepted extension, once both
      are lower-cased. */
  lemma ExtensionOfBasename(path: Path)
    ensures EndsWith(Lower(path), ".csv") <==> EndsWith(Lower(Basename(path)), ".csv")
    ensures EndsWith(Lower(path), ".xlsx") <==> EndsWith(Lower(Basename(path)), ".xlsx")
    ensures EndsWith(Lower(path), ".xls") <==> EndsWith(Lower(Basename(path)), ".xls")
  {
    SuffixOfBasename(path, ".csv");
    SuffixOfBasename(path, ".xlsx");
    SuffixOfBasename(path, ".xls");
  }

  lemma SuffixOfBasename(path: Path, suffix: string)
    requires suffix in {".csv", ".xlsx", ".xls"}
    ensures EndsWith(Lower(path), suffix) <==> EndsWith(Lower(Basename(path)), suffix)
  {
    BasenameSuffix(path, suffix);
  }

  // ---------------------------------------------------------------- validation

  datatype Problem = NotFound | UnsupportedFormat

  datatype Rejected = Rejected(path: Path, problem: Problem)

  /** `validar_archivos`: the accepted paths and the rejected ones, each list in
      input order. `total_validos` and `total_invalidos` are their lengths. */
  datatype Validation = Validation(valid: seq<Path>, invalid: seq<Rejected>)

  predicate Accepted(entry: Path -> Entry, path: Path) {
    entry(path) == RegularFile && Supported(path)
  }

  function AcceptedBy(entry: Path -> Entry): Path -> bool {
    p => Accepted(entry, p)
  }

  /** Why a path that is not accepted is rejected. Existence is checked before
      the extension: anything that is not a regular file is "not found",
      whatever its name. */
  function RejectionOf(entry: Path -> Entry): Path -> Rejected {
    p => Rejected(p, if entry(p) == RegularFile then UnsupportedFormat else NotFound)
  }

  /** The text reported for a rejected path. */
  function Describe(r: Rejected): string {
    r.path + (match r.problem
              case NotFound => " (archivo no encontrado)"
              case UnsupportedFormat => " (formato no soportado)")
  }

  function Messages(v: Validation): seq<string> {
    Map(v.invalid, Describe)
  }

  /** `validar_archivos`: one pass over the paths, in order. */
  function Validate(entry: Path -> Entry, paths: seq<Path>): (v: Validation)
    ensures v.valid == Filter(paths, AcceptedBy(entry))
    ensures v.invalid == Map(Filter(paths, Not(AcceptedBy(entry))), RejectionOf(entry))
  {
    var r := Partition(paths, AcceptedBy(entry), RejectionOf(entry));
    Validation(r.0, r.1)
  }

  /** Every input path is reported exactly once: the two lists together hold
      the input paths, a path is valid iff it is a regular file with an
      accepted extension, and a rejected path is "not found" unless it is a
      regular file. */
  lemma ValidatePartition(entry: Path -> Entry, paths: seq<Path>)
    ensures var v := Validate(entry, paths);
      |v.valid| + |v.invalid| == |paths|
      && multiset(v.valid) + multiset(Map(v.invalid, (x: Rejected) => x.path)) == multiset(paths)
      && (forall p :: p in v.valid <==> p in paths && Accepted(entry, p))
      && (forall i :: 0 <= i < |v.invalid| ==>
            !Accepted(entry, v.invalid[i].path)
            && (v.invalid[i].problem == NotFound <==> entry(v.invalid[i].path) != RegularFile))
  {
    var v := Validate(entry, paths);
    var rejected := Filter(paths, Not(AcceptedBy(entry)));
    FilterPartition(paths, AcceptedBy(entry));
    assert Map(v.invalid, (x: Rejected) => x.path) == rejected;
    forall i | 0 <= i < |v.invalid|
      ensures !Accepted(entry, v.invalid[i].path)
    {
      assert rejected[i] in rejected;
    }
  }

  // ------------------------------------------------------------------- reading

  /** The CSV encoding chain: the first encoding whose read does not fail with
      a decode error decides the outcome (a success or any other failure); when
      every encoding fails to decode, the last-resort read decides. */
  function Chain<T>(attempt: Engine -> Attempt<T>, encodings: seq<Encoding>): (r: Attempt<T>)
    ensures r == attempt(CsvIgnoringErrors)
      || exists k :: 0 <= k < |encodings| && r == attempt(Csv(encodings[k])) && !r.DecodeFailure?
  {
    if |encodings| == 0 then attempt(CsvIgnoringErrors)
    else
      var a := attempt(Csv(encodings[0]));
      if a.DecodeFailure? then
        var r := Chain(attempt, encodings[1..]);
        assert forall k :: 0 <= k < |encodings[1..]| ==> encodings[1..][k] == encodings[k + 1];
        r
      else a
  }

  /** The chain stops at the first encoding that decodes. */
  lemma {:induction false} ChainPicksFirst<T>(attempt: Engine -> Attempt<T>, encodings: seq<Encoding>, k: nat)
    requires k < |encodings|
    requires forall i :: 0 <= i < k ==> attempt(Csv(encodings[i])).DecodeFailure?
    requires !attempt(Csv(encodings[k])).DecodeFailure?
    ensures Chain(attempt, encodings) == attempt(Csv(encodings[k]))
  {
    if k > 0 {
      assert attempt(Csv(encodings[0])).DecodeFailure?;
      var rest := encodings[1..];
      assert forall i :: 0 <= i < k - 1 ==> rest[i] == encodings[i + 1];
      ChainPicksFirst(attempt, rest, k - 1);
    }
  }

  /** When no encoding decodes, the last-resort read decides. */
  lemma {:induction false} ChainFallsBack<T>(attempt: Engine -> Attempt<T>, encodings: seq<Encoding>)
    requires forall i :: 0 <= i < |encodings| ==> attempt(Csv(encodings[i])).DecodeFailure?
    ensures Chain(attempt, encodings) == attempt(CsvIgnoringErrors)
  {
    if |encodings| > 0 {
      assert attempt(Csv(encodings[0])).DecodeFailure?;
      var rest := encodings[1..];
      assert forall i :: 0 <= i < |rest| ==> rest[i] == encodings[i + 1];
      ChainFallsBack(attempt, rest);
    }
  }

  /** Latin-1 assigns a character to every byte, so with the standard chain the
      outcome is settled by UTF-8 or Latin-1: cp1252, ISO-8859-1 and the
      last-resort read are never consulted. */
  lemma Latin1EndsChain<T>(attempt: Engine -> Attempt<T>)
    requires !attempt(Csv(Latin1)).DecodeFailure?
    ensures Chain(attempt, CsvEncodings)
      == (if attempt(Csv(Utf8)).DecodeFailure? then attempt(Csv(Latin1)) else attempt(Csv(Utf8)))
  {
    if attempt(Csv(Utf8)).DecodeFailure? {
      ChainPicksFirst(attempt, CsvEncodings, 1);
    } else {
      ChainPicksFirst(attempt, CsvEncodings, 0);
    }
  }

  function Loader(disk: Disk, path: Path): Engine -> Attempt<Table> {
    e => disk.load(path, e)
  }

  /** The message of the exception `leer_archivo` re-raises. */
  function ReadError(path: Path, message: string): string {
    "Error al leer " + path + ": " + message
  }

  function Lift(path: Path, a: Attempt<Table>): Result<Table> {
    match a
    case Success(t) => Ok(t)
    case DecodeFailure(m) => Err(ReadError(path, m))
    case OtherFailure(m) => Err(ReadError(path, m))
  }

  /** `leer_archivo`: dispatch on the lower-cased basename. */
  function ReadFile(disk: Disk, path: Path): (r: Result<Table>)
    ensures r.Ok? ==> Supported(path)
    ensures !Supported(path) ==>
      r == Err(ReadError(path, "Tipo de archivo no soportado: " + Lower(Basename(path))))
  {
    var name := Lower(Basename(path));
    if EndsWith(name, ".xlsx") then Lift(path, disk.load(path, Openpyxl))
    else if EndsWith(name, ".xls") then Lift(path, disk.load(path, Xlrd))
    else if EndsWith(name, ".csv") then Lift(path, Chain(Loader(disk, path), CsvEncodings))
    else Err(ReadError(path, "Tipo de archivo no soportado: " + name))
  }

  /** Each accepted extension goes to its own reader. */
  lemma ReadFileDispatch(disk: Disk, path: Path)
    ensures var name := Lower(Basename(path));
      (EndsWith(name, ".xlsx") ==> ReadFile(disk, path) == Lift(path, disk.load(path, Openpyxl)))
      && (EndsWith(name, ".xls") ==> ReadFile(disk, path) == Lift(path, disk.load(path, Xlrd)))
      && (EndsWith(name, ".csv") ==> ReadFile(disk, path) == Lift(path, Chain(Loader(disk, path), CsvEncodings)))
  {
    SuffixesExclusive(Lower(Basename(path)));
  }

  /** Reads that agree on Excel, UTF-8 and Latin-1 agree on every file when
      Latin-1 decodes it: the later encodings and the last resort are dead code. */
  lemma ReadFileNeedsTwoEncodings(d1: Disk, d2: Disk, path: Path)
    requires !d1.load(path, Csv(Latin1)).DecodeFailure?
    requires d1.load(path, Openpyxl) == d2.load(path, Openpyxl)
    requires d1.load(path, Xlrd) == d2.load(path, Xlrd)
    requires d1.load(path, Csv(Utf8)) == d2.load(path, Csv(Utf8))
    requires d1.load(path, Csv(Latin1)) == d2.load(path, Csv(Latin1))
    ensures ReadFile(d1, path) == ReadFile(d2, path)
  {
    Latin1EndsChain(Loader(d1, path));
    Latin1EndsChain(Loader(d2, path));
    assert Chain(Loader(d1, path), CsvEncodings) == Chain(Loader(d2, path), CsvEncodings);
    ReadFileDispatch(d1, path);
    ReadFileDispatch(d2, path);
  }

  // ----------------------------------------------------------------- transform

  /** The message of pandas' `DataFrame.insert` when the label exists. */
  function InsertClash(c: Column): string {
    "cannot insert " + c + ", already exists"
  }

  /** `DataFrame.insert(at, c, v)`: a new column at position `at`, holding `v`
      in every row. */
  function Insert(t: Table, at: nat, c: Column, v: Cell): (r: Result<Table>)
    requires at <= |t.columns|
    ensures r.Err? <==> c in t.columns
    ensures r.Err? ==> r.message == InsertClash(c)
    ensures r.Ok? ==>
      && |r.value.columns| == |t.columns| + 1 && r.value.columns[at] == c
      && r.value.columns[..at] == t.columns[..at] && r.value.columns[at + 1..] == t.columns[at..]
    ensures r.Ok? ==> |r.value.rows| == |t.rows|
    ensures r.Ok? ==> forall i :: 0 <= i < |t.rows| ==> r.value.rows[i] == t.rows[i][c := Some(v)]
  {
    if c in t.columns then Err(InsertClash(c))
    else
      var columns := t.columns[..at] + [c] + t.columns[at..];
      assert columns[at + 1..] == t.columns[at..];
      Ok(Table(columns, Map(t.rows, (row: Row) => row[c := Some(v)])))
  }

  /** `DataFrame.drop(columns=[c])` */
  function DropColumn(t: Table, c: Column): Table {
    Table(Without(t.columns, [c]), Map(t.rows, (row: Row) => row - {c}))
  }

  /** The names of a list, as a set. */
  function Names(cs: seq<Column>): set<Column> {
    set c | c in cs
  }

  lemma NamesStep(cs: seq<Column>, c: Column)
    ensures Names(cs + [c]) == Names(cs) + {c}
  {
  }

  /** The transformed table and the names actually removed. */
  datatype Dropped = Dropped(table: Table, removed: seq<Column>)

  /** The drop loop of `procesar_dataframe`: each requested name still present is
      dropped and reported; absent names are skipped and never raise. */
  function DropAll(t: Table, ignore: seq<Column>): (r: Dropped)
    ensures r.table.columns == Without(t.columns, ignore)
    ensures r.removed == DropDuplicates(Within(ignore, t.columns))
    ensures |r.table.rows| == |t.rows|
    ensures forall i :: 0 <= i < |t.rows| && Keyed(t.rows[i], t.columns) ==>
      r.table.rows[i] == t.rows[i] - Names(ignore)
  {
    if |ignore| == 0 then
      FilterKeepsAll(t.columns, x => x !in ignore);
      assert forall i :: 0 <= i < |t.rows| ==> t.rows[i] - Names(ignore) == t.rows[i];
      Dropped(t, [])
    else
      var init := ignore[..|ignore| - 1];
      var c := ignore[|ignore| - 1];
      assert ignore == init + [c];
      var d0 := DropAll(t, init);
      WithoutStep(t.columns, init, c);
      WithinStep(t.columns, init, c);
      NamesStep(init, c);
      var present := c in d0.table.columns;
      var r := if present then Dropped(DropColumn(d0.table, c), d0.removed + [c]) else d0;
      forall i | 0 <= i < |t.rows| && Keyed(t.rows[i], t.columns)
        ensures r.table.rows[i] == t.rows[i] - Names(ignore)
      {
        RowStep(t.rows[i], t.columns, init, c, present);
      }
      r
  }

  /** Dropping `c` from a keyed row after the names of `init`, when `c` was
      still a column, or leaving it when it was not, removes the names of
      `init + [c]`. */
  lemma RowStep(row: Row, columns: seq<Column>, init: seq<Column>, c: Column, present: bool)
    requires Keyed(row, columns)
    requires present == (c in columns && c !in init)
    ensures (if present then (row - Names(init)) - {c} else row - Names(init)) == row - Names(init + [c])
  {
    NamesStep(init, c);
  }

  /** Dropping columns of a well-formed table leaves a well-formed table. */
  lemma DropAllWellFormed(t: Table, ignore: seq<Column>)
    requires WellFormed(t)
    ensures WellFormed(DropAll(t, ignore).table)
  {
    var r := DropAll(t, ignore).table;
    FilterNoDup(t.columns, x => x !in ignore);
    forall i | 0 <= i < |r.rows|
      ensures Keyed(r.rows[i], r.columns)
    {
      assert Keyed(t.rows[i], t.columns);
    }
  }

  /** The two inserts of `procesar_dataframe`: the basename of the path at
      position 0, then one stamp for every row at position 1. */
  function Stamp(t: Table, path: Path, origin: Column, date: Column, now: Moment): (r: Result<Table>)
    ensures r.Err? <==> origin in t.columns || date in t.columns || date == origin
    ensures r.Err? ==> r.message == InsertClash(if origin in t.columns then origin else date)
    ensures r.Ok? ==> r.value.columns == [origin, date] + t.columns && |r.value.rows| == |t.rows|
  {
    var first := Insert(t, 0, origin, Text(Basename(path)));
    if first.Err? then Err(first.message)
    else
      var second := Insert(first.value, 1, date, Text(ProcessingStamp(now)));
      if second.Err? then second
      else
        var cs := second.value.columns;
        assert cs == [origin, date] + t.columns by {
          assert cs[..1] == first.value.columns[..1] == [origin];
          assert cs[2..] == first.value.columns[1..] == t.columns;
        }
        second
  }

  /** Every stamped row holds the basename and the stamp on top of its own
      values, and a well-formed table stays well-formed. */
  lemma StampRows(t: Table, path: Path, origin: Column, date: Column, now: Moment)
    requires WellFormed(t)
    requires Stamp(t, path, origin, date, now).Ok?
    ensures var s := Stamp(t, path, origin, date, now).value;
      WellFormed(s)
      && forall i :: 0 <= i < |t.rows| ==>
        s.rows[i] == t.rows[i][origin := Some(Text(Basename(path)))][date := Some(Text(ProcessingStamp(now)))]
  {
    var s := Stamp(t, path, origin, date, now).value;
    forall i | 0 <= i < |s.rows|
      ensures Keyed(s.rows[i], s.columns)
    {
      assert Keyed(t.rows[i], t.columns);
    }
  }

  /** `procesar_dataframe`: on a copy (the input is a value and is left as it
      was), stamp the two metadata columns in front, then drop the requested
      columns. An insert whose name already exists raises, and nothing after
      it happens. */
  function Transform(t: Table, path: Path, ignore: seq<Column>, origin: Column, date: Column, now: Moment): (r: Result<Dropped>)
    ensures r.Err? <==> origin in t.columns || date in t.columns || date == origin
    ensures r.Err? ==> r.message == InsertClash(if origin in t.columns then origin else date)
    ensures r.Ok? ==> |r.value.table.rows| == |t.rows|
    ensures r.Ok? ==> r.value.table.columns == Without([origin, date] + t.columns, ignore)
    ensures r.Ok? ==> r.value.removed == DropDuplicates(Within(ignore, [origin, date] + t.columns))
  {
    var stamped := Stamp(t, path, origin, date, now);
    if stamped.Err? then Err(stamped.message)
    else Ok(DropAll(stamped.value, ignore))
  }

  /** The first surviving name of `[x] + s` is `x` when `x` is not dropped. */
  lemma WithoutHead(x: Column, s: seq<Column>, ignore: seq<Column>)
    requires x !in ignore
    ensures |Without([x] + s, ignore)| > 0 && Without([x] + s, ignore)[0] == x
  {
    FilterConcat([x], s, y => y !in ignore);
    FilterAppend([], x, y => y !in ignore);
    assert [] + [x] == [x];
  }

  /** What every transformed row holds: the basename under the origin column,
      the stamp under the date column (unless either was dropped), and the
      original value under every kept column of the file; the origin column
      comes first unless it was dropped. */
  lemma TransformRows(t: Table, path: Path, ignore: seq<Column>, origin: Column, date: Column, now: Moment)
    requires WellFormed(t)
    requires Transform(t, path, ignore, origin, date, now).Ok?
    ensures var u := Transform(t, path, ignore, origin, date, now).value.table;
      WellFormed(u)
      && (origin !in ignore ==> |u.columns| > 0 && u.columns[0] == origin)
      && forall i :: 0 <= i < |u.rows| ==>
        (origin !in ignore ==> origin in u.rows[i] && u.rows[i][origin] == Some(Text(Basename(path))))
        && (date !in ignore ==> date in u.rows[i] && u.rows[i][date] == Some(Text(ProcessingStamp(now))))
        && (forall c :: c in t.columns && c !in ignore ==> c in u.rows[i] && u.rows[i][c] == t.rows[i][c])
  {
    StampRows(t, path, origin, date, now);
    DroppedRows(t, Stamp(t, path, origin, date, now).value, ignore, origin, date,
      Text(Basename(path)), Text(ProcessingStamp(now)));
  }

  lemma DroppedRows(t: Table, s: Table, ignore: seq<Column>, origin: Column, date: Column, vo: Cell, vd: Cell)
    requires WellFormed(t) && WellFormed(s)
    requires s.columns == [origin, date] + t.columns && |s.rows| == |t.rows|
    requires forall i :: 0 <= i < |t.rows| ==> s.rows[i] == t.rows[i][origin := Some(vo)][date := Some(vd)]
    ensures var u := DropAll(s, ignore).table;
      WellFormed(u)
      && (origin !in ignore ==> |u.columns| > 0 && u.columns[0] == origin)
      && forall i :: 0 <= i < |u.rows| ==>
        (origin !in ignore ==> origin in u.rows[i] && u.rows[i][origin] == Some(vo))
        && (date !in ignore ==> date in u.rows[i] && u.rows[i][date] == Some(vd))
        && (forall c :: c in t.columns && c !in ignore ==> c in u.rows[i] && u.rows[i][c] == t.rows[i][c])
  {
    DropAllWellFormed(s, ignore);
    DroppedHead(t, s, ignore, origin, date);
    DroppedKeyed(s, ignore);
    var u := DropAll(s, ignore).table;
    MetadataDistinct(t, s, origin, date);
    forall i | 0 <= i < |u.rows|
      ensures (origin !in ignore ==> origin in u.rows[i] && u.rows[i][origin] == Some(vo))
        && (date !in ignore ==> date in u.rows[i] && u.rows[i][date] == Some(vd))
        && (forall c :: c in t.columns && c !in ignore ==> c in u.rows[i] && u.rows[i][c] == t.rows[i][c])
    {
      assert u.rows[i] == s.rows[i] - Names(ignore);
      DroppedRow(t, s, ignore, origin, date, vo, vd, i);
    }
  }

  /** In a well-formed stamped table the two metadata names are distinct
      and are not names of the read table. */
  lemma MetadataDistinct(t: Table, s: Table, origin: Column, date: Column)
    requires WellFormed(s) && s.columns == [origin, date] + t.columns
    ensures origin != date && origin !in t.columns && date !in t.columns
  {
    assert s.columns[0] == origin && s.columns[1] == date;
    assert forall c :: c in t.columns ==> c in s.columns[2..];
  }

  lemma DroppedRow(t: Table, s: Table, ignore: seq<Column>, origin: Column, date: Column, vo: Cell, vd: Cell, i: nat)
    requires WellFormed(t) && origin != date
    requires i < |t.rows| && i < |s.rows| && s.rows[i] == t.rows[i][origin := Some(vo)][date := Some(vd)]
    requires origin !in t.columns && date !in t.columns
    ensures var r := s.rows[i] - Names(ignore);
      && (origin !in ignore ==> origin in r && r[origin] == Some(vo))
      && (date !in ignore ==> date in r && r[date] == Some(vd))
      && (forall c :: c in t.columns && c !in ignore ==> c in r && r[c] == t.rows[i][c])
  {
    assert Keyed(t.rows[i], t.columns);
    RowKept(t.rows[i], Names(ignore), origin, date, vo, vd);
  }

  lemma DroppedHead(t: Table, s: Table, ignore: seq<Column>, origin: Column, date: Column)
    requires s.columns == [origin, date] + t.columns
    ensures var u := DropAll(s, ignore).table;
      origin !in ignore ==> |u.columns| > 0 && u.columns[0] == origin
  {
    if origin !in ignore {
      WithoutHead(origin, [date] + t.columns, ignore);
      assert [origin] + ([date] + t.columns) == [origin, date] + t.columns;
    }
  }

  lemma DroppedKeyed(s: Table, ignore: seq<Column>)
    requires WellFormed(s)
    ensures var u := DropAll(s, ignore).table;
      forall i :: 0 <= i < |u.rows| ==> u.rows[i] == s.rows[i] - Names(ignore)
  {
    var u := DropAll(s, ignore).table;
    forall i | 0 <= i < |u.rows|
      ensures u.rows[i] == s.rows[i] - Names(ignore)
    {
      assert Keyed(s.rows[i], s.columns);
    }
  }

  lemma RowKept(row: Row, dropped: set<Column>, origin: Column, date: Column, vo: Cell, vd: Cell)
    requires origin != date
    ensures var u := row[origin := Some(vo)][date := Some(vd)] - dropped;
      (origin !in dropped ==> origin in u && u[origin] == Some(vo))
      && (date !in dropped ==> date in u && u[date] == Some(vd))
      && (forall c :: c in row && c !in dropped && c != origin && c != date ==> c in u && u[c] == row[c])
  {
  }

  // --------------------------------------------------------------- save, names

  /** The two writers `guardar_archivo` can call. */
  datatype Writer = CsvUtf8Sig | ExcelOpenpyxl

  /** `guardar_archivo`: the format picks the writer; an unknown format, like a
      failing write, yields `false` rather than an exception. `write` stands
      for creating the directory and writing the table, `true` when neither
      raises. */
  function SaveFile(t: Table, path: Path, format: string, write: (Table, Path, Writer) -> bool): (ok: bool)
    ensures ok ==> Lower(format) == "csv" || Lower(format) == "xlsx"
    ensures Lower(format) == "csv" ==> ok == write(t, path, CsvUtf8Sig)
    ensures Lower(format) == "xlsx" ==> ok == write(t, path, ExcelOpenpyxl)
  {
    if Lower(format) == "csv" then write(t, path, CsvUtf8Sig)
    else if Lower(format) == "xlsx" then write(t, path, ExcelOpenpyxl)
    else false
  }

  /** `csv` for the `csv` format in any letter case, `xlsx` for anything else. */
  function Extension(format: string): (e: string)
    ensures e == "csv" <==> Lower(format) == "csv"
    ensures e == "csv" || e == "xlsx"
  {
    if Lower(format) == "csv" then "csv" else "xlsx"
  }

  const OutputPrefix: string := "consolidado_"

  /** `crear_nombre_archivo_salida` */
  function OutputName(format: string, now: Moment): (name: string)
    ensures StartsWith(name, OutputPrefix)
    ensures EndsWith(name, "." + Extension(format))
    ensures |OutputPrefix| + |"." + Extension(format)| <= |name|
    ensures ValidMoment(now) ==>
      ParseFileStamp(name[|OutputPrefix|..|name| - |"." + Extension(format)|]) == Some(now)
  {
    var ext := "." + Extension(format);
    var name := OutputPrefix + FileStamp(now) + ext;
    assert name[..|OutputPrefix|] == OutputPrefix;
    assert name[|name| - |ext|..] == ext;
    MiddleOf(OutputPrefix, FileStamp(now), ext);
    assert ValidMoment(now) ==> ParseFileStamp(FileStamp(now)) == Some(now) by {
      if ValidMoment(now) {
        FileStampRoundTrip(now);
      }
    }
    name
  }

  /** Output names of different moments differ: the stamp can be read back
      from the name. */
  lemma OutputNameInjective(format: string, a: Moment, b: Moment)
    requires ValidMoment(a) && ValidMoment(b)
    requires OutputName(format, a) == OutputName(format, b)
    ensures a == b
  {
    MiddleOf(OutputPrefix, FileStamp(a), "." + Extension(format));
    MiddleOf(OutputPrefix, FileStamp(b), "." + Extension(format));
    FileStampRoundTrip(a);
    FileStampRoundTrip(b);
  }

  lemma MiddleOf<T>(a: seq<T>, b: seq<T>, c: seq<T>)
    ensures (a + b + c)[|a|..|a| + |b|] == b
  {
  }

  // ------------------------------------------------------------------- reports

  /** `generar_resumen`, without the column types. */
  datatype Summary = Summary(records: nat, columnCount: nat, files: nat, names: seq<string>, columns: seq<Column>)

  function Summarize(t: Table, processed: seq<Path>): (s: Summary)
    ensures s.records == |t.rows| && s.columnCount == |t.columns| && s.columns == t.columns
    ensures s.files == |processed| == |s.names|
    ensures forall i :: 0 <= i < |processed| ==>
      && EndsWith(processed[i], s.names[i]) && '/' !in s.names[i]
      && (|s.names[i]| < |processed[i]| ==> processed[i][|processed[i]| - |s.names[i]| - 1] == '/')
  {
    Summary(|t.rows|, |t.columns|, |processed|, Map(processed, Basename), t.columns)
  }

  /** `detectar_duplicados`: the row positions (the index is `0..n-1` after
      `ignore_index` and `reset_index`) of the rows equal to an earlier row.
      A table without columns is `empty` to pandas, and `duplicated()` then
      marks no row. */
  datatype DuplicateReport = DuplicateReport(found: bool, count: nat, indices: seq<nat>)

  function DetectDuplicates(t: Table): (r: DuplicateReport)
    ensures r.found <==> r.count > 0
    ensures r.count == |r.indices|
    ensures |t.columns| == 0 ==> r == DuplicateReport(false, 0, [])
    ensures |t.columns| > 0 ==> r.count + |DropDuplicates(t.rows)| == |t.rows|
    ensures |t.columns| > 0 ==> forall i: nat :: i in r.indices <==> i < |t.rows| && IsRepeat(t.rows, i)
    ensures forall a, b :: 0 <= a < b < |r.indices| ==> r.indices[a] < r.indices[b]
  {
    if |t.columns| == 0 then DuplicateReport(false, 0, [])
    else
      var reps := Repeats(t.rows);
      DropDuplicatesCount(t.rows);
      DuplicateReport(|reps| > 0, |reps|, if |reps| > 0 then reps else [])
  }
}

=== FILE: interface.dfy ===
/** The pure logic of the desktop front end (`src/ui.py`): the lists it keeps
    (selected files, columns to ignore, columns to include), the parsing of
    comma-separated name lists, the sorted union of the selected files'
    headers, the turning of an include list into the exclude list the engine
    understands, and the guard against starting a second run. Widgets,
    message boxes and the worker thread are not modelled. */
module Interface {
  import opened Results
  import opened Text
  import opened Seqs
  import opened Tables
  import opened Clock
  import opened Files
  import opened Consolidation

  /** `modo_columnas_var`: `incluir_manual`, `incluir_lista` or `ignorar`. */
  datatype Mode = IncludeManual | IncludeList | Ignore

  /** The fields of the window the run logic reads and writes. `available` is
      `columnas_disponibles`; the `...Entry` fields are the text boxes. */
  datatype Ui = Ui(
    files: seq<Path>,
    available: seq<Column>,
    ignored: seq<Column>,
    included: seq<Column>,
    mode: Mode,
    ignoreEntry: string,
    includeEntry: string,
    originEntry: string,
    dateEntry: string,
    dropDuplicates: bool,
    format: string,
    busy: bool)

  // ----------------------------------------------------------- name lists

  predicate NonEmpty(s: string) {
    s != []
  }

  /** A name that can be typed back into a comma-separated box: nonempty,
      without commas and without surrounding white space. */
  predicate Typable(name: string) {
    name != [] && ',' !in name && !IsSpace(name[0]) && !IsSpace(name[|name| - 1])
  }

  /** `[c.strip() for c in text.split(",") if c.strip()]` */
  function ParseNames(text: string): (names: seq<Column>)
    ensures forall x :: x in names ==> Typable(x)
  {
    var pieces := Split(text, ',');
    StrippedPiecesTypable(pieces);
    Filter(Map(pieces, Strip), NonEmpty)
  }

  lemma StrippedPiecesTypable(pieces: seq<string>)
    requires forall k :: 0 <= k < |pieces| ==> ',' !in pieces[k]
    ensures forall x :: x in Filter(Map(pieces, Strip), NonEmpty) ==> Typable(x)
  {
    var stripped := Map(pieces, Strip);
    forall x | x in Filter(stripped, NonEmpty)
      ensures Typable(x)
    {
      var k :| 0 <= k < |stripped| && stripped[k] == x;
      StripKeepsOut(pieces[k], ',');
    }
  }

  /** Stripping a text without `c` leaves a text without `c`. */
  lemma StripKeepsOut(s: string, c: char)
    requires c !in s
    ensures c !in Strip(s)
  {
    var a := TrimStart(s);
    SliceKeepsOut(s, |s| - |a|, |s|, c);
    SliceKeepsOut(a, 0, |TrimEnd(a)|, c);
  }

  lemma SliceKeepsOut<T>(s: seq<T>, i: nat, j: nat, x: T)
    requires i <= j <= |s| && x !in s
    ensures x !in s[i..j]
  {
  }

  /** Writing names separated by commas and parsing the text gives them back. */
  lemma ParseJoin(names: seq<Column>)
    requires forall x :: x in names ==> Typable(x)
    ensures ParseNames(Join(names, ',')) == names
  {
    if |names| == 0 {
      ParseEmpty();
    } else {
      ParseJoinNonEmpty(names);
    }
  }

  lemma ParseEmpty()
    ensures ParseNames([]) == []
  {
    SplitFree([], ',');
    assert Map([[]], Strip) == [[]];
    FilterAppend([], [], NonEmpty);
  }

  lemma ParseJoinNonEmpty(names: seq<Column>)
    requires |names| > 0
    requires forall x :: x in names ==> Typable(x)
    ensures ParseNames(Join(names, ',')) == names
  {
    CommaFree(names);
    SplitJoin(names, ',');
    StripAllTypable(names);
    FilterKeepsAll(names, NonEmpty);
  }

  lemma CommaFree(names: seq<Column>)
    requires forall x :: x in names ==> Typable(x)
    ensures forall k :: 0 <= k < |names| ==> ',' !in names[k]
  {
    forall k | 0 <= k < |names|
      ensures ',' !in names[k]
    {
      assert names[k] in names;
    }
  }

  lemma StripAllTypable(names: seq<Column>)
    requires forall x :: x in names ==> Typable(x)
    ensures Map(names, Strip) == names
  {
    var stripped := Map(names, Strip);
    forall k | 0 <= k < |names|
      ensures stripped[k] == names[k]
    {
      assert names[k] in names;
      NoEdgeSpaceIsStripped(names[k]);
    }
  }

  /** Parsing is a normal form: parsing the rejoined result changes nothing. */
  lemma ParseIdempotent(text: string)
    ensures ParseNames(Join(ParseNames(text), ',')) == ParseNames(text)
  {
    ParseJoin(ParseNames(text));
  }

  // ------------------------------------------------------------ list updates

  /** The text the ignore box shows before the user types. */
  const IgnorePlaceholder: string := "Ejemplo: Telefono, Email, ID_interno"

  const EmptyNamesWarning: string := "Por favor ingresa nombres de columnas"

  /** The window after an action, with the warning it showed, if any. */
  datatype Step = Step(ui: Ui, warning: Option<string>)

  /** `agregar_columnas_ignorar`: an empty box or the untouched placeholder is
      a warning and changes nothing; otherwise the parsed names not yet in the
      list are appended in order and the box is cleared. */
  function AddIgnored(ui: Ui): (s: Step)
    ensures s.warning.Some? <==> Strip(ui.ignoreEntry) == [] || Strip(ui.ignoreEntry) == IgnorePlaceholder
    ensures s.warning.Some? ==> s == Step(ui, Some(EmptyNamesWarning))
    ensures s.warning == None ==> (
      && s.ui == ui.(ignored := s.ui.ignored, ignoreEntry := [])
      && |ui.ignored| <= |s.ui.ignored| && s.ui.ignored[..|ui.ignored|] == ui.ignored
      && (forall c :: c in s.ui.ignored <==> c in ui.ignored || c in ParseNames(Strip(ui.ignoreEntry))))
    ensures NoDup(ui.ignored) ==> NoDup(s.ui.ignored)
  {
    var text := Strip(ui.ignoreEntry);
    if text == [] || text == IgnorePlaceholder then Step(ui, Some(EmptyNamesWarning))
    else Step(ui.(ignored := AppendAbsent(ui.ignored, ParseNames(text)), ignoreEntry := []), None)
  }

  /** `agregar_incluir_desde_seleccion`: the selected names not yet in the
      include list are appended in order. */
  function AddIncluded(ui: Ui, selection: seq<Column>): (u: Ui)
    ensures u == ui.(included := u.included)
    ensures |ui.included| <= |u.included| && u.included[..|ui.included|] == ui.included
    ensures forall c :: c in u.included <==> c in ui.included || c in selection
    ensures NoDup(ui.included) ==> NoDup(u.included)
  {
    ui.(included := AppendAbsent(ui.included, selection))
  }

  /** Adding the same selection twice adds nothing the second time. */
  lemma AddIncludedIdempotent(ui: Ui, selection: seq<Column>)
    ensures AddIncluded(AddIncluded(ui, selection), selection) == AddIncluded(ui, selection)
  {
    AppendPresent(AddIncluded(ui, selection).included, selection);
  }

  /** Appending items that are all present already changes nothing. */
  lemma AppendPresent<T(!new)>(acc: seq<T>, items: seq<T>)
    requires forall x :: x in items ==> x in acc
    ensures AppendAbsent(acc, items) == acc
  {
    AppendAbsentAdds(acc, items);
  }

  /** A successful addition clears the box, so pressing the button again
      only warns. */
  lemma AddIgnoredTwice(ui: Ui)
    requires AddIgnored(ui).warning == None
    ensures AddIgnored(AddIgnored(ui).ui) == Step(AddIgnored(ui).ui, Some(EmptyNamesWarning))
  {
    assert AllSpace(AddIgnored(ui).ui.ignoreEntry);
  }

  // --------------------------------------------------------- header discovery

  /** Strictly increasing in Python's string order: sorted, each name once. */
  predicate Sorted(s: seq<string>) {
    forall i, j :: 0 <= i < j < |s| ==> Less(s[i], s[j])
  }

  lemma SortedNoDup(s: seq<string>)
    requires Sorted(s)
    ensures NoDup(s)
  {
    forall i, j | 0 <= i < j < |s|
      ensures s[i] != s[j]
    {
      LessIrreflexive(s[i]);
    }
  }

  lemma SortedCons(x: string, s: seq<string>)
    requires Sorted(s)
    requires forall y :: y in s ==> Less(x, y)
    ensures Sorted([x] + s)
  {
    var r := [x] + s;
    forall i, j | 0 <= i < j < |r|
      ensures Less(r[i], r[j])
    {
      if i > 0 {
        assert r[i] == s[i - 1] && r[j] == s[j - 1];
      } else {
        assert r[j] in s;
      }
    }
  }

  /** Inserting a name into a sorted list, unless it is there already. */
  function InsertSorted(s: seq<string>, x: string): (r: seq<string>)
    requires Sorted(s)
    ensures Sorted(r)
    ensures forall y :: y in r <==> y in s || y == x
  {
    if |s| == 0 then [x]
    else if x == s[0] then s
    else if Less(x, s[0]) then
      forall y | y in s
        ensures Less(x, y)
      {
        var j :| 0 <= j < |s| && s[j] == y;
        if j > 0 {
          LessTransitive(x, s[0], y);
        }
      }
      SortedCons(x, s);
      [x] + s
    else
      var rest := s[1..];
      assert Sorted(rest);
      var r := InsertSorted(rest, x);
      LessTotal(x, s[0]);
      forall y | y in r
        ensures Less(s[0], y)
      {
        if y != x {
          var j :| 0 <= j < |rest| && rest[j] == y;
          assert s[j + 1] == y;
        }
      }
      SortedCons(s[0], r);
      assert s == [s[0]] + rest;
      [s[0]] + r
  }

  /** Every name of `names` inserted into `s`. */
  function InsertAll(s: seq<string>, names: seq<string>): (r: seq<string>)
    requires Sorted(s)
    ensures Sorted(r)
    ensures forall y :: y in r <==> y in s || y in names
  {
    if |names| == 0 then s
    else
      var init := names[..|names| - 1];
      assert names == init + [names[|names| - 1]];
      InsertSorted(InsertAll(s, init), names[|names| - 1])
  }

  /** A sorted list is fixed by its elements: whatever order the names were
      collected in, the result is `sorted(set(names))`. */
  lemma {:induction false} SortedUnique(a: seq<string>, b: seq<string>)
    requires Sorted(a) && Sorted(b)
    requires forall x :: x in a <==> x in b
    ensures a == b
  {
    SameEmptiness(a, b);
    if |a| > 0 {
      FirstIsLeast(a, b[0]);
      FirstIsLeast(b, a[0]);
      LessAntisymmetric(a[0], b[0]);
      var a1, b1 := a[1..], b[1..];
      forall x
        ensures x in a1 <==> x in b1
      {
        if x in a1 {
          TailAbove(a, x);
          TailAbove(b, x);
        }
        if x in b1 {
          TailAbove(b, x);
          TailAbove(a, x);
        }
      }
      SortedUnique(a1, b1);
      assert a == [a[0]] + a1 && b == [b[0]] + b1;
    }
  }

  lemma SameEmptiness(a: seq<string>, b: seq<string>)
    requires forall x :: x in a <==> x in b
    ensures |a| > 0 <==> |b| > 0
  {
    if |a| > 0 {
      assert a[0] in b;
    }
    if |b| > 0 {
      assert b[0] in a;
    }
  }

  lemma FirstIsLeast(s: seq<string>, x: string)
    requires Sorted(s) && x in s
    ensures x == s[0] || Less(s[0], x)
  {
  }

  lemma LessAntisymmetric(a: string, b: string)
    ensures !(Less(a, b) && Less(b, a))
  {
    if Less(a, b) {
      LessAsymmetric(a, b);
    }
  }

  /** In a sorted list, the names after the first are exactly those above it. */
  lemma TailAbove(s: seq<string>, x: string)
    requires Sorted(s) && |s| > 0
    ensures x in s[1..] <==> x in s && x != s[0]
  {
    LessIrreflexive(s[0]);
    if x in s && x != s[0] {
      var j :| 0 <= j < |s| && s[j] == x;
      assert s[1..][j - 1] == x;
    }
    if x in s[1..] {
      var j :| 0 <= j < |s[1..]| && s[1..][j] == x;
      assert Less(s[0], s[j + 1]);
    }
  }

  /** The names a header-only read gives, or none when it fails. */
  function Headers(a: Attempt<seq<Column>>): seq<Column> {
    if a.Success? then a.value else []
  }

  function HeaderReader(disk: Disk, path: Path): Engine -> Attempt<seq<Column>> {
    e => disk.header(path, e)
  }

  /** The header names of one file, as `_descubrir_union_columnas` reads them:
      dispatch on the lower-cased full path; CSV headers with UTF-8 only. */
  function FileHeaderAsWritten(disk: Disk, path: Path): seq<Column> {
    var low := Lower(path);
    if EndsWith(low, ".csv") then Headers(disk.header(path, Csv(Utf8)))
    else if EndsWith(low, ".xlsx") then Headers(disk.header(path, Openpyxl))
    else if EndsWith(low, ".xls") then Headers(disk.header(path, Xlrd))
    else []
  }

  /** The header names of one file, CSV headers read through the same
      encoding chain as the full read. */
  function FileHeader(disk: Disk, path: Path): seq<Column> {
    var low := Lower(path);
    if EndsWith(low, ".csv") then Headers(Chain(HeaderReader(disk, path), CsvEncodings))
    else if EndsWith(low, ".xlsx") then Headers(disk.header(path, Openpyxl))
    else if EndsWith(low, ".xls") then Headers(disk.header(path, Xlrd))
    else []
  }

  /** The sorted union of the header names of the files, each file's header
      given by `header`. Files that cannot be read contribute nothing. */
  function Union(paths: seq<Path>, header: Path -> seq<Column>): (u: seq<Column>)
    ensures Sorted(u)
    ensures forall c :: c in u <==> exists k :: 0 <= k < |paths| && c in header(paths[k])
  {
    if |paths| == 0 then []
    else
      var init := paths[..|paths| - 1];
      assert forall k :: 0 <= k < |init| ==> init[k] == paths[k];
      InsertAll(Union(init, header), header(paths[|paths| - 1]))
  }

  function HeaderOf(disk: Disk): Path -> seq<Column> {
    p => FileHeader(disk, p)
  }

  function HeaderAsWrittenOf(disk: Disk): Path -> seq<Column> {
    p => FileHeaderAsWritten(disk, p)
  }

  /** `_descubrir_union_columnas`, with the CSV header read through the chain. */
  function HeaderUnion(disk: Disk, paths: seq<Path>): (u: seq<Column>)
    ensures Sorted(u) && NoDup(u)
    ensures forall c :: c in u <==> exists k :: 0 <= k < |paths| && c in FileHeader(disk, paths[k])
  {
    var u := Union(paths, HeaderOf(disk));
    SortedNoDup(u);
    u
  }

  /** `_descubrir_union_columnas` as written. */
  function HeaderUnionAsWritten(disk: Disk, paths: seq<Path>): (u: seq<Column>)
    ensures Sorted(u)
    ensures forall c :: c in u <==> exists k :: 0 <= k < |paths| && c in FileHeaderAsWritten(disk, paths[k])
  {
    Union(paths, HeaderAsWrittenOf(disk))
  }

  /** The union depends on the set of files only, not on their order or
      repetitions, whichever way the headers are discovered: this holds for
      `HeaderUnion` and `HeaderUnionAsWritten` alike. */
  lemma HeaderUnionOrderFree(header: Discovery, p1: seq<Path>, p2: seq<Path>)
    requires forall p :: p in p1 <==> p in p2
    ensures Union(p1, header) == Union(p2, header)
  {
    var u1 := Union(p1, header);
    var u2 := Union(p2, header);
    forall c
      ensures c in u1 <==> c in u2
    {
      if c in u1 {
        var k :| 0 <= k < |p1| && c in header(p1[k]);
        assert p1[k] in p2;
        var m :| 0 <= m < |p2| && p2[m] == p1[k];
      }
      if c in u2 {
        var k :| 0 <= k < |p2| && c in header(p2[k]);
        assert p2[k] in p1;
        var m :| 0 <= m < |p1| && p1[m] == p2[k];
      }
    }
    SortedUnique(u1, u2);
  }

  // --------------------------------------------- headers against full reads

  /** A header-only read decodes when the full read does, and then names the
      same columns. */
  predicate Agrees(load: Attempt<Table>, header: Attempt<seq<Column>>) {
    && (load.Success? ==> header == Success(load.value.columns))
    && (load.DecodeFailure? ==> header.DecodeFailure?)
  }

  ghost predicate Coherent(disk: Disk) {
    forall p, e :: Agrees(disk.load(p, e), disk.header(p, e))
  }

  /** Walking the encoding chain over agreeing readers ends in agreeing
      outcomes. */
  lemma {:induction false} ChainAgrees(load: Engine -> Attempt<Table>, header: Engine -> Attempt<seq<Column>>,
                                       encodings: seq<Encoding>)
    requires forall e :: Agrees(load(e), header(e))
    ensures Agrees(Chain(load, encodings), Chain(header, encodings))
  {
    if |encodings| > 0 {
      var e := Csv(encodings[0]);
      assert Agrees(load(e), header(e));
      if load(e).DecodeFailure? {
        ChainAgrees(load, header, encodings[1..]);
      }
    }
  }

  /** Each accepted extension of the lower-cased path goes to its own
      header reader. */
  lemma FileHeaderDispatch(disk: Disk, path: Path)
    ensures var low := Lower(path);
      && (EndsWith(low, ".xlsx") ==> FileHeader(disk, path) == Headers(disk.header(path, Openpyxl)))
      && (EndsWith(low, ".xls") ==> FileHeader(disk, path) == Headers(disk.header(path, Xlrd)))
      && (EndsWith(low, ".csv") ==> FileHeader(disk, path) == Headers(Chain(HeaderReader(disk, path), CsvEncodings)))
  {
    SuffixesExclusive(Lower(path));
  }

  /** A readable outcome of agreeing readers names the header's columns. */
  lemma LiftedAgrees(path: Path, load: Attempt<Table>, header: Attempt<seq<Column>>)
    requires Agrees(load, header)
    ensures Lift(path, load).Ok? ==> Headers(header) == Lift(path, load).value.columns
  {
  }

  lemma EngineHeaders(disk: Disk, path: Path, e: Engine)
    requires Coherent(disk)
    ensures Lift(path, disk.load(path, e)).Ok? ==>
      Headers(disk.header(path, e)) == Lift(path, disk.load(path, e)).value.columns
  {
    LiftedAgrees(path, disk.load(path, e), disk.header(path, e));
  }

  lemma ChainHeaders(disk: Disk, path: Path)
    requires Coherent(disk)
    ensures Lift(path, Chain(Loader(disk, path), CsvEncodings)).Ok? ==>
      Headers(Chain(HeaderReader(disk, path), CsvEncodings)) == Lift(path, Chain(Loader(disk, path), CsvEncodings)).value.columns
  {
    forall e
      ensures Agrees(Loader(disk, path)(e), HeaderReader(disk, path)(e))
    {
      assert Agrees(disk.load(path, e), disk.header(path, e));
    }
    ChainAgrees(Loader(disk, path), HeaderReader(disk, path), CsvEncodings);
    LiftedAgrees(path, Chain(Loader(disk, path), CsvEncodings), Chain(HeaderReader(disk, path), CsvEncodings));
  }

  /** On a coherent disk, the header discovery names exactly the columns the
      full read of a readable file gives. */
  lemma HeaderMatchesRead(disk: Disk, path: Path)
    requires Coherent(disk)
    requires ReadFile(disk, path).Ok?
    ensures FileHeader(disk, path) == ReadFile(disk, path).value.columns
  {
    var name := Lower(Basename(path));
    ReadFileDispatch(disk, path);
    FileHeaderDispatch(disk, path);
    ExtensionOfBasename(path);
    if EndsWith(name, ".xlsx") {
      EngineHeaders(disk, path, Openpyxl);
    } else if EndsWith(name, ".xls") {
      EngineHeaders(disk, path, Xlrd);
    } else {
      ChainHeaders(disk, path);
    }
  }

  // ------------------------------------------------------------------- a run

  /** The include list of the include modes. */
  function IncludeNames(ui: Ui): seq<Column> {
    if ui.mode == IncludeManual then ui.included else ParseNames(Strip(ui.includeEntry))
  }

  /** `[c for c in union if c not in set(include)]` */
  function Complement(union: seq<Column>, keep: seq<Column>): (exclude: seq<Column>)
    ensures forall c :: c in exclude <==> c in union && c !in keep
    ensures SubsequenceOf(exclude, union)
    ensures multiset(exclude) + multiset(Within(union, keep)) == multiset(union)
  {
    FilterSubsequence(union, c => c !in keep);
    WithinWithout(union, keep);
    Without(union, keep)
  }

  /** A subsequence of a sorted list is sorted. */
  lemma {:induction false} SubsequenceSorted(xs: seq<string>, ys: seq<string>)
    requires Sorted(ys) && SubsequenceOf(xs, ys)
    ensures Sorted(xs)
    decreases |ys|
  {
    if |xs| > 0 {
      var ys0 := ys[..|ys| - 1];
      assert Sorted(ys0);
      if xs[|xs| - 1] == ys[|ys| - 1] {
        var xs0 := xs[..|xs| - 1];
        SubsequenceSorted(xs0, ys0);
        SubsequenceMembers(xs0, ys0);
        forall i, j | 0 <= i < j < |xs|
          ensures Less(xs[i], xs[j])
        {
          if j == |xs| - 1 {
            assert xs[i] == xs0[i] && xs0[i] in ys0;
            var m :| 0 <= m < |ys0| && ys0[m] == xs0[i];
            assert ys[m] == xs[i];
          } else {
            assert xs[i] == xs0[i] && xs[j] == xs0[j];
          }
        }
      } else {
        SubsequenceSorted(xs, ys0);
      }
    }
  }

  lemma {:induction false} SubsequenceMembers(xs: seq<string>, ys: seq<string>)
    requires SubsequenceOf(xs, ys)
    ensures forall x :: x in xs ==> x in ys
    decreases |ys|
  {
    if |xs| > 0 {
      var ys0 := ys[..|ys| - 1];
      if xs[|xs| - 1] == ys[|ys| - 1] {
        SubsequenceMembers(xs[..|xs| - 1], ys0);
        assert xs == xs[..|xs| - 1] + [xs[|xs| - 1]];
      } else {
        SubsequenceMembers(xs, ys0);
      }
    }
  }

  /** How the window finds the column names of a file: `HeaderAsWrittenOf`
      as `_descubrir_union_columnas` does it, `HeaderOf` through the encoding
      chain. */
  type Discovery = Path -> seq<Column>

  /** In the include modes the exclude list is the union of the discovered
      headers minus the include list, still sorted; in `ignorar` mode it is
      the explicit list. */
  function ExcludeList(ui: Ui, header: Discovery): (exclude: seq<Column>)
    ensures ui.mode == Ignore ==> exclude == ui.ignored
    ensures ui.mode != Ignore ==> (
      && Sorted(exclude)
      && SubsequenceOf(exclude, Union(ui.files, header))
      && forall c :: c in exclude <==> c in Union(ui.files, header) && c !in IncludeNames(ui))
  {
    if ui.mode == Ignore then ui.ignored
    else
      var union := Union(ui.files, header);
      var exclude := Complement(union, IncludeNames(ui));
      SubsequenceSorted(exclude, union);
      exclude
  }

  /** A metadata column name from its box: stripped, or the default when blank. */
  function MetaName(entry: string, fallback: Column): (name: Column)
    ensures Strip(entry) == [] ==> name == fallback
    ensures Strip(entry) != [] ==> name == Strip(entry) && !IsSpace(name[0]) && !IsSpace(name[|name| - 1])
  {
    if Strip(entry) == [] then fallback else Strip(entry)
  }

  /** The settings `_procesar_archivos_thread` passes to `configurar`. */
  function RunConfig(ui: Ui, header: Discovery): (cfg: Config)
    ensures cfg.origin != [] && cfg.date != []
    ensures cfg.ignore == ExcludeList(ui, header) && cfg.dropDuplicates == ui.dropDuplicates
  {
    Configure(MetaName(ui.originEntry, DefaultOrigin), MetaName(ui.dateEntry, DefaultDate),
              Some(ExcludeList(ui, header)), ui.dropDuplicates)
  }

  /** `_procesar_archivos_thread`: configure, then process and save with the
      default name. */
  function RunFromUi(ui: Ui, disk: Disk, header: Discovery, clock: nat -> Moment, outDir: Result<Path>,
                     saveMoment: Moment, write: (Table, Path, Writer) -> bool): (f: Final)
    ensures f.run == Run(disk, RunConfig(ui, header), ui.files, clock)
    ensures f.saved.Some? ==> (
      f.saved.value.Saved? ==> StartsWith(f.saved.value.name, OutputPrefix))
  {
    ProcessAndSave(disk, RunConfig(ui, header), ui.files, clock, ui.format, None, outDir, saveMoment, write)
  }

  /** In an include mode, on a coherent disk, a processed file keeps only the
      included columns and the metadata columns. */
  lemma IncludeModeKeepsOnlyIncluded(ui: Ui, disk: Disk, path: Path, now: Moment)
    requires Coherent(disk) && ui.mode != Ignore && path in ui.files
    requires ProcessFile(disk, RunConfig(ui, HeaderOf(disk)), path, now).Processed?
    ensures var cfg := RunConfig(ui, HeaderOf(disk));
      forall c :: c in ProcessFile(disk, cfg, path, now).table.columns ==>
        c in IncludeNames(ui) || c == cfg.origin || c == cfg.date
  {
    var cfg := RunConfig(ui, HeaderOf(disk));
    ProcessedColumns(disk, cfg, path, now);
    HeaderMatchesRead(disk, path);
    var k :| 0 <= k < |ui.files| && ui.files[k] == path;
    FileHeaderInUnion(disk, ui.files, k);
  }

  /** In an include mode, on a coherent disk, the consolidated table holds
      only included columns and the two metadata columns. */
  lemma IncludeModeConsolidatesOnlyIncluded(ui: Ui, disk: Disk, clock: nat -> Moment)
    requires Coherent(disk) && ui.mode != Ignore
    requires Run(disk, RunConfig(ui, HeaderOf(disk)), ui.files, clock).Consolidated?
    ensures var cfg := RunConfig(ui, HeaderOf(disk));
      forall c :: c in Run(disk, cfg, ui.files, clock).report.table.columns ==>
        c in IncludeNames(ui) || c == cfg.origin || c == cfg.date
  {
    var cfg := RunConfig(ui, HeaderOf(disk));
    forall c | c in Run(disk, cfg, ui.files, clock).report.table.columns
      ensures c in IncludeNames(ui) || c == cfg.origin || c == cfg.date
    {
      var i := ColumnSource(disk, cfg, ui.files, clock, c);
      var p := Validate(disk.entry, ui.files).valid[i];
      IncludeModeKeepsOnlyIncluded(ui, disk, p, clock(i));
    }
  }

  /** The columns of a processed file: the metadata columns and the read
      columns that are not ignored. */
  lemma ProcessedColumns(disk: Disk, cfg: Config, path: Path, now: Moment)
    requires ProcessFile(disk, cfg, path, now).Processed?
    ensures ReadFile(disk, path).Ok?
    ensures forall c :: c in ProcessFile(disk, cfg, path, now).table.columns ==>
      c == cfg.origin || c == cfg.date || (c in ReadFile(disk, path).value.columns && c !in cfg.ignore)
  {
    var t := ReadFile(disk, path).value;
    forall c | c in ProcessFile(disk, cfg, path, now).table.columns
      ensures c == cfg.origin || c == cfg.date || (c in t.columns && c !in cfg.ignore)
    {
      assert c in [cfg.origin, cfg.date] + t.columns;
    }
  }

  lemma FileHeaderInUnion(disk: Disk, files: seq<Path>, k: nat)
    requires k < |files|
    ensures forall c :: c in FileHeader(disk, files[k]) ==> c in HeaderUnion(disk, files)
  {
  }


  /** The disk of the counterexample: one CSV file, without rows, whose only
      column `Teléfono` is stored in Latin-1. Its `é` is the byte 0xE9, which
      does not start a valid UTF-8 sequence there, so the UTF-8 reads fail and
      the Latin-1 reads succeed. Header and full reads agree, so the disk is
      coherent. */
  function Latin1Disk(): Disk {
    Disk(
      p => RegularFile,
      (p, e) => if e == Csv(Utf8) then DecodeFailure("utf-8") else Success(Table(["Teléfono"], [])),
      (p, e) => if e == Csv(Utf8) then DecodeFailure("utf-8") else Success(["Teléfono"]))
  }

  /** The window of the counterexample: one selected CSV file, manual include
      mode, only `Cliente` included. */
  function Latin1Window(): Ui {
    Ui(["ventas.csv"], [], [], ["Cliente"], IncludeManual, [], [], [], [], false, "xlsx", false)
  }

  lemma Latin1DiskCoherent()
    ensures Coherent(Latin1Disk())
  {
  }

  lemma VentasIsCsv()
    ensures Lower("ventas.csv") == "ventas.csv" && EndsWith("ventas.csv", ".csv")
    ensures Basename("ventas.csv") == "ventas.csv"
  {
    LowerOfLowercase("ventas.csv");
    BasenameOfSlashFree("ventas.csv");
  }

  lemma Latin1FullRead()
    ensures ReadFile(Latin1Disk(), "ventas.csv") == Ok(Table(["Teléfono"], []))
  {
    VentasIsCsv();
    Latin1EndsChain(Loader(Latin1Disk(), "ventas.csv"));
  }

  lemma Latin1HeaderAsWritten()
    ensures FileHeaderAsWritten(Latin1Disk(), "ventas.csv") == []
  {
    VentasIsCsv();
  }

  /** With an empty exclude list the file is consolidated with `Teléfono`. */
  lemma Latin1KeepsTelefono(now: Moment)
    ensures var o := ProcessFile(Latin1Disk(), Configure(DefaultOrigin, DefaultDate, Some([]), false), "ventas.csv", now);
      o.Processed? && "Teléfono" in o.table.columns
  {
    Latin1FullRead();
    TelefonoStamped(now);
    assert Configure(DefaultOrigin, DefaultDate, Some([]), false) == Config(DefaultOrigin, DefaultDate, [], false);
  }

  lemma TelefonoStamped(now: Moment)
    ensures var r := Transform(Table(["Teléfono"], []), "ventas.csv", [], DefaultOrigin, DefaultDate, now);
      r.Ok? && "Teléfono" in r.value.table.columns
  {
    var t := Table(["Teléfono"], []);
    assert |DefaultOrigin| != |DefaultDate| && |DefaultOrigin| != |t.columns[0]| && |DefaultDate| != |t.columns[0]|;
    assert t.columns[0] in [DefaultOrigin, DefaultDate] + t.columns;
  }

  /** As written, header discovery misses the columns of a CSV file that only
      decodes as Latin-1, so including only `Cliente` still lets `Teléfono`
      through: the run configuration the window builds has an empty exclude
      list, and with it the file is consolidated with its `Teléfono` column,
      on a disk where header reads and full reads agree. */
  lemma Latin1ColumnsEscapeExclusion(now: Moment)
    ensures Coherent(Latin1Disk())
    ensures var cfg := RunConfig(Latin1Window(), HeaderAsWrittenOf(Latin1Disk()));
      && cfg.ignore == []
      && var o := ProcessFile(Latin1Disk(), cfg, "ventas.csv", now);
      o.Processed? && "Teléfono" in o.table.columns && "Teléfono" !in IncludeNames(Latin1Window())
  {
    Latin1DiskCoherent();
    Latin1AsWrittenConfig();
    Latin1KeepsTelefono(now);
  }

  /** The window's configuration under the as-written discovery: default
      metadata names and nothing to exclude. */
  lemma Latin1AsWrittenConfig()
    ensures RunConfig(Latin1Window(), HeaderAsWrittenOf(Latin1Disk()))
      == Configure(DefaultOrigin, DefaultDate, Some([]), false)
  {
    var ui := Latin1Window();
    Latin1HeaderAsWritten();
    assert ui.files == ["ventas.csv"] && ui.files[..0] == [];
    assert Union(ui.files, HeaderAsWrittenOf(Latin1Disk())) == [];
    assert ExcludeList(ui, HeaderAsWrittenOf(Latin1Disk())) == [];
    assert Strip([]) == [];
  }

  /** With the encoding chain, the same file's `Teléfono` column is found, so
      the exclude list of the same window drops it. */
  lemma Latin1ColumnsExcluded()
    ensures HeaderUnion(Latin1Disk(), ["ventas.csv"]) == ["Teléfono"]
    ensures ExcludeList(Latin1Window(), HeaderOf(Latin1Disk())) == ["Teléfono"]
  {
    Latin1UnionFound();
    var ui := Latin1Window();
    assert ui.files == ["ventas.csv"];
    var e := ExcludeList(ui, HeaderOf(Latin1Disk()));
    assert IncludeNames(ui) == ["Cliente"];
    SortedUnique(e, ["Teléfono"]);
  }

  lemma Latin1UnionFound()
    ensures Union(["ventas.csv"], HeaderOf(Latin1Disk())) == ["Teléfono"]
  {
    Latin1HeaderFound();
    SortedUnique(Union(["ventas.csv"], HeaderOf(Latin1Disk())), ["Teléfono"]);
  }

  lemma Latin1HeaderFound()
    ensures FileHeader(Latin1Disk(), "ventas.csv") == ["Teléfono"]
  {
    VentasIsCsv();
    Latin1EndsChain(HeaderReader(Latin1Disk(), "ventas.csv"));
  }

  // ----------------------------------------------------------- file choice

  /** `seleccionar_archivos`: the chosen paths not yet selected are appended
      in order, and the available columns are recomputed from all of them. */
  function SelectFiles(ui: Ui, header: Discovery, chosen: seq<Path>): (u: Ui)
    ensures u == ui.(files := u.files, available := u.available)
    ensures |ui.files| <= |u.files| && u.files[..|ui.files|] == ui.files
    ensures forall p :: p in u.files <==> p in ui.files || p in chosen
    ensures NoDup(ui.files) ==> NoDup(u.files)
    ensures Sorted(u.available)
    ensures forall c :: c in u.available <==> exists k :: 0 <= k < |u.files| && c in header(u.files[k])
  {
    var files := AppendAbsent(ui.files, chosen);
    ui.(files := files, available := Union(files, header))
  }

  /** Choosing the same files again changes nothing. */
  lemma SelectFilesIdempotent(ui: Ui, header: Discovery, chosen: seq<Path>)
    ensures SelectFiles(SelectFiles(ui, header, chosen), header, chosen) == SelectFiles(ui, header, chosen)
  {
    AppendPresent(SelectFiles(ui, header, chosen).files, chosen);
  }

  /** The lists the window keeps never hold a name twice, and the available
      columns are sorted. */
  predicate Invariant(ui: Ui) {
    NoDup(ui.files) && NoDup(ui.ignored) && NoDup(ui.included) && Sorted(ui.available)
  }

  lemma ActionsKeepInvariant(ui: Ui, header: Discovery, chosen: seq<Path>, selection: seq<Column>)
    requires Invariant(ui)
    ensures Invariant(SelectFiles(ui, header, chosen))
    ensures Invariant(AddIgnored(ui).ui)
    ensures Invariant(AddIncluded(ui, selection))
  {
  }

  // ------------------------------------------------- removing and clearing

  /** `eliminar_archivos_seleccionados`: the files at the selected positions
      of the list are removed and the available columns are recomputed from
      the files left. */
  function RemoveFiles(ui: Ui, header: Discovery, selected: set<nat>): (u: Ui)
    ensures u == ui.(files := u.files, available := u.available)
    ensures NoDup(ui.files) ==> NoDup(u.files)
    ensures NoDup(ui.files) ==> forall i :: 0 <= i < |ui.files| && i in selected ==> ui.files[i] !in u.files
    ensures forall i :: 0 <= i < |ui.files| && i !in selected ==> ui.files[i] in u.files
    ensures Sorted(u.available)
    ensures forall c :: c in u.available <==> exists k :: 0 <= k < |u.files| && c in header(u.files[k])
  {
    var files := RemoveAt(ui.files, selected);
    RemoveAtMembers(ui.files, selected);
    assert NoDup(ui.files) ==> NoDup(files) && forall i :: 0 <= i < |ui.files| && i in selected ==> ui.files[i] !in files by {
      if NoDup(ui.files) { RemoveAtNoDup(ui.files, selected); }
    }
    ui.(files := files, available := Union(files, header))
  }

  /** `limpiar_lista_archivos`: no file is selected, and so no column is
      available. */
  function ClearFiles(ui: Ui, header: Discovery): (u: Ui)
    ensures u == ui.(files := [], available := [])
  {
    var files: seq<Path> := [];
    assert Union(files, header) == [];
    ui.(files := files, available := Union(files, header))
  }

  /** Removing every file is clearing the list. */
  lemma RemoveEveryFile(ui: Ui, header: Discovery, selected: set<nat>)
    requires forall i :: 0 <= i < |ui.files| ==> i in selected
    ensures RemoveFiles(ui, header, selected) == ClearFiles(ui, header)
  {
    RemoveAtEverything(ui.files, selected);
    assert Union([], header) == [];
  }

  /** `eliminar_columna_ignorar`: the list box allows one selection at most;
      the selected name is cut out of the ignore list, and nothing happens
      without a selection. */
  function RemoveIgnored(ui: Ui, selected: Option<nat>): (u: Ui)
    requires selected.Some? ==> selected.value < |ui.ignored|
    ensures selected == None ==> u == ui
    ensures selected.Some? ==> u == ui.(ignored := ui.ignored[..selected.value] + ui.ignored[selected.value + 1..])
  {
    match selected
    case None => ui
    case Some(i) =>
      RemoveAtOne(ui.ignored, i);
      ui.(ignored := RemoveAt(ui.ignored, {i}))
  }

  /** `limpiar_columnas_ignorar` */
  function ClearIgnored(ui: Ui): (u: Ui)
    ensures u == ui.(ignored := [])
  {
    ui.(ignored := [])
  }

  /** `quitar_incluir_desde_seleccion`: the names at the selected positions
      are removed from the include list; nothing else changes. */
  function RemoveIncluded(ui: Ui, selected: set<nat>): (u: Ui)
    ensures u == ui.(included := u.included)
    ensures NoDup(ui.included) ==> NoDup(u.included)
    ensures NoDup(ui.included) ==> forall i :: 0 <= i < |ui.included| && i in selected ==> ui.included[i] !in u.included
    ensures forall c :: c in u.included ==> c in ui.included
  {
    var included := RemoveAt(ui.included, selected);
    RemoveAtMembers(ui.included, selected);
    assert NoDup(ui.included) ==> NoDup(included) && forall i :: 0 <= i < |ui.included| && i in selected ==> ui.included[i] !in included by {
      if NoDup(ui.included) { RemoveAtNoDup(ui.included, selected); }
    }
    ui.(included := included)
  }

  /** `limpiar_columnas_incluir` */
  function ClearIncluded(ui: Ui): (u: Ui)
    ensures u == ui.(included := [])
  {
    ui.(included := [])
  }

  /** The window as `__init__` builds it: nothing selected, ignore mode, the
      placeholder in the ignore box, the default metadata names, no
      deduplication, CSV output, no run going. */
  function Initial(): Ui {
    Ui([], [], [], [], Ignore, IgnorePlaceholder, [], DefaultOrigin, DefaultDate, false, "csv", false)
  }

  /** `limpiar_todo`: when the user confirms, the file, ignore and include
      lists are cleared, the boxes get their start-up text back, the mode
      returns to ignore and deduplication is switched off. */
  function ClearAll(ui: Ui, header: Discovery, confirmed: bool): (u: Ui)
  {
    if !confirmed then ui
    else
      var cleared := ClearIncluded(ClearIgnored(ClearFiles(ui, header)));
      cleared.(ignoreEntry := IgnorePlaceholder, originEntry := DefaultOrigin, dateEntry := DefaultDate,
               includeEntry := [], mode := Ignore, dropDuplicates := false)
  }

  /** Clearing everything, once confirmed, gives back the start-up window,
      except that the output format and the busy flag are left as they
      were; without confirmation nothing changes. */
  lemma ClearAllResets(ui: Ui, header: Discovery, confirmed: bool)
    ensures confirmed ==> ClearAll(ui, header, confirmed) == Initial().(format := ui.format, busy := ui.busy)
    ensures !confirmed ==> ClearAll(ui, header, confirmed) == ui
  {
  }

  /** Removing and clearing keep the window's lists free of repeats and the
      available columns sorted. */
  lemma RemovalsKeepInvariant(ui: Ui, header: Discovery, files: set<nat>, ignored: Option<nat>,
                              included: set<nat>, confirmed: bool)
    requires Invariant(ui)
    requires ignored.Some? ==> ignored.value < |ui.ignored|
    ensures Invariant(RemoveFiles(ui, header, files))
    ensures Invariant(RemoveIgnored(ui, ignored))
    ensures Invariant(RemoveIncluded(ui, included))
    ensures Invariant(ClearAll(ui, header, confirmed))
  {
    if ignored.Some? {
      var i := ignored.value;
      RemoveAtNoDup(ui.ignored, {i});
      RemoveAtOne(ui.ignored, i);
    }
  }

  // ------------------------------------------------------------ run guard

  const NoFilesWarning: string := "No hay archivos seleccionados"

  /** What pressing the process button does. */
  datatype Request = Refused | Warned(message: string) | Started(ui: Ui)

  /** `procesar_archivos`: nothing while a run is in progress, a warning when
      no file is selected, otherwise the window is marked busy and the run
      starts. */
  function RequestRun(ui: Ui): (r: Request)
    ensures r.Started? <==> !ui.busy && ui.files != []
    ensures r.Refused? <==> ui.busy
    ensures r.Warned? ==> r.message == NoFilesWarning
    ensures r.Started? ==> r.ui == ui.(busy := true)
  {
    if ui.busy then Refused
    else if ui.files == [] then Warned(NoFilesWarning)
    else Started(ui.(busy := true))
  }

  /** `_finalizar_procesamiento` */
  function Finish(ui: Ui): (u: Ui)
    ensures !u.busy && u.(busy := ui.busy) == ui
  {
    ui.(busy := false)
  }

  /** A second press while the run is going is refused; once the run has
      finished, the same request starts again. */
  lemma NoReentry(ui: Ui)
    requires RequestRun(ui).Started?
    ensures RequestRun(RequestRun(ui).ui) == Refused
    ensures RequestRun(Finish(RequestRun(ui).ui)) == RequestRun(ui)
  {
  }
}

=== FILE: results.dfy ===
/** Failure-carrying datatypes used in place of Python's `None` and exceptions. */
module Results {

  /** A value that may be absent (Python's `None`, pandas' null cell). */
  datatype Option<+T> = None | Some(value: T)

  /** The outcome of a step that may raise: `Err` carries the text of the exception. */
  datatype Result<+T> = Ok(value: T) | Err(message: string)
}

=== FILE: seqs.dfy ===
/** List operations the pipeline builds on: order-preserving filtering, the
    first-occurrence deduplication behind pandas' `duplicated`/`drop_duplicates`,
    and the "append only what is not already there" idiom the front end uses for
    every list it keeps. All are defined on the prefix `s[..|s| - 1]`, so they
    follow the order in which a Python loop appends. */
module Seqs {

  predicate NoDup<T(==,!new)>(s: seq<T>) {
    forall i, j :: 0 <= i < j < |s| ==> s[i] != s[j]
  }

  /** `xs` can be obtained from `ys` by deleting elements (order is kept). */
  predicate SubsequenceOf<T(==,!new)>(xs: seq<T>, ys: seq<T>)
    decreases |ys|
  {
    if |xs| == 0 then true
    else if |ys| == 0 then false
    else if xs[|xs| - 1] == ys[|ys| - 1] then SubsequenceOf(xs[..|xs| - 1], ys[..|ys| - 1])
    else SubsequenceOf(xs, ys[..|ys| - 1])
  }

  function Map<T, U>(s: seq<T>, f: T -> U): (r: seq<U>)
    ensures |r| == |s|
    ensures forall i :: 0 <= i < |s| ==> r[i] == f(s[i])
  {
    seq(|s|, i requires 0 <= i < |s| => f(s[i]))
  }

  /** `[x for x in s if p(x)]` */
  function Filter<T(!new)>(s: seq<T>, p: T -> bool): (r: seq<T>)
    ensures |r| <= |s|
    ensures forall x :: x in r <==> x in s && p(x)
  {
    if |s| == 0 then []
    else
      var s0 := s[..|s| - 1];
      var x := s[|s| - 1];
      assert s == s0 + [x];
      var r0 := Filter(s0, p);
      if p(x) then r0 + [x] else r0
  }

  /** The elements of `s` that do not occur in `drop`, in their order in `s`. */
  function Without<T(==,!new)>(s: seq<T>, drop: seq<T>): (r: seq<T>)
    ensures forall x :: x in r <==> x in s && x !in drop
  {
    Filter(s, x => x !in drop)
  }

  /** The elements of `s` that also occur in `keep`, in their order in `s`. */
  function Within<T(==,!new)>(s: seq<T>, keep: seq<T>): (r: seq<T>)
    ensures forall x :: x in r <==> x in s && x in keep
  {
    Filter(s, x => x in keep)
  }

  lemma {:induction false} FilterAppend<T(!new)>(s: seq<T>, x: T, p: T -> bool)
    ensures Filter(s + [x], p) == Filter(s, p) + (if p(x) then [x] else [])
  {
    assert (s + [x])[..|s + [x]| - 1] == s;
  }

  lemma {:induction false} FilterConcat<T(!new)>(a: seq<T>, b: seq<T>, p: T -> bool)
    ensures Filter(a + b, p) == Filter(a, p) + Filter(b, p)
    decreases |b|
  {
    if |b| == 0 {
      assert a + b == a;
    } else {
      var b0 := b[..|b| - 1];
      var x := b[|b| - 1];
      assert a + b == (a + b0) + [x];
      assert b == b0 + [x];
      FilterAppend(a + b0, x, p);
      FilterAppend(b0, x, p);
      FilterConcat(a, b0, p);
    }
  }

  /** Filtering keeps the order of the survivors. */
  lemma {:induction false} FilterSubsequence<T(!new)>(s: seq<T>, p: T -> bool)
    ensures SubsequenceOf(Filter(s, p), s)
  {
    if |s| > 0 {
      var s0 := s[..|s| - 1];
      var x := s[|s| - 1];
      FilterSubsequence(s0, p);
      if p(x) {
        assert (Filter(s0, p) + [x])[..|Filter(s0, p)|] == Filter(s0, p);
      } else {
        SubsequenceExtend(Filter(s0, p), s0, x);
        assert s0 + [x] == s;
      }
    }
  }

  function Not<T>(p: T -> bool): T -> bool {
    x => !p(x)
  }

  /** The elements `keep` accepts, and the others turned by `tag` into the
      entries of a second list; both lists follow the order of `s`. */
  function Partition<T(!new), U>(s: seq<T>, keep: T -> bool, tag: T -> U): (r: (seq<T>, seq<U>))
    ensures |r.0| + |r.1| == |s|
  {
    FilterPartition(s, keep);
    (Filter(s, keep), Map(Filter(s, Not(keep)), tag))
  }

  /** The total weight of the elements of `s`. */
  function Sum<T>(s: seq<T>, w: T -> nat): nat {
    if |s| == 0 then 0 else Sum(s[..|s| - 1], w) + w(s[|s| - 1])
  }

  /** Weights that agree on every element give the same total. */
  lemma {:induction false} SumPointwise<T>(s: seq<T>, w1: T -> nat, w2: T -> nat)
    requires forall x :: x in s ==> w1(x) == w2(x)
    ensures Sum(s, w1) == Sum(s, w2)
  {
    if |s| > 0 {
      assert s[|s| - 1] in s;
      assert forall x :: x in s[..|s| - 1] ==> x in s;
      SumPointwise(s[..|s| - 1], w1, w2);
    }
  }

  /** Filtering by a predicate and by its negation splits `s` into two parts
      that together hold every element of `s` exactly as often. */
  lemma {:induction false} FilterPartition<T(!new)>(s: seq<T>, p: T -> bool)
    ensures multiset(Filter(s, p)) + multiset(Filter(s, Not(p))) == multiset(s)
    ensures |Filter(s, p)| + |Filter(s, Not(p))| == |s|
  {
    if |s| > 0 {
      var s0 := s[..|s| - 1];
      var x := s[|s| - 1];
      assert s == s0 + [x];
      FilterPartition(s0, p);
      FilterAppend(s0, x, p);
      FilterAppend(s0, x, Not(p));
    }
  }

  lemma {:induction false} FilterNoDup<T(!new)>(s: seq<T>, p: T -> bool)
    requires NoDup(s)
    ensures NoDup(Filter(s, p))
  {
    if |s| > 0 {
      var s0 := s[..|s| - 1];
      var x := s[|s| - 1];
      assert x !in s0;
      FilterNoDup(s0, p);
    }
  }

  /** A subsequence stays one when the longer sequence grows at the end. */
  lemma {:induction false} SubsequenceExtend<T(!new)>(xs: seq<T>, ys: seq<T>, y: T)
    requires SubsequenceOf(xs, ys)
    ensures SubsequenceOf(xs, ys + [y])
    decreases |ys|, 1
  {
    var ys' := ys + [y];
    assert ys'[..|ys'| - 1] == ys;
    if |xs| > 0 && xs[|xs| - 1] == y {
      SubsequenceDropLast(xs, ys);
    }
  }

  /** Mapping both sides keeps a subsequence a subsequence. */
  lemma {:induction false} MapSubsequence<T(!new), U(!new)>(xs: seq<T>, ys: seq<T>, f: T -> U)
    requires SubsequenceOf(xs, ys)
    ensures SubsequenceOf(Map(xs, f), Map(ys, f))
    decreases |ys|
  {
    if |xs| > 0 {
      var xs0, ys0 := xs[..|xs| - 1], ys[..|ys| - 1];
      assert Map(xs, f)[..|xs| - 1] == Map(xs0, f);
      assert Map(ys, f)[..|ys| - 1] == Map(ys0, f);
      if xs[|xs| - 1] == ys[|ys| - 1] {
        MapSubsequence(xs0, ys0, f);
      } else {
        MapSubsequence(xs, ys0, f);
        if f(xs[|xs| - 1]) == f(ys[|ys| - 1]) {
          SubsequenceDropLast(Map(xs, f), Map(ys0, f));
        }
      }
    }
  }

  /** Dropping the last element of a subsequence leaves a subsequence. */
  lemma {:induction false} SubsequenceDropLast<T(!new)>(xs: seq<T>, ys: seq<T>)
    requires |xs| > 0 && SubsequenceOf(xs, ys)
    ensures SubsequenceOf(xs[..|xs| - 1], ys)
    decreases |ys|, 0
  {
    var xs0 := xs[..|xs| - 1];
    var ys0 := ys[..|ys| - 1];
    if xs[|xs| - 1] == ys[|ys| - 1] {
      SubsequenceExtend(xs0, ys0, ys[|ys| - 1]);
      assert ys0 + [ys[|ys| - 1]] == ys;
    } else {
      SubsequenceDropLast(xs, ys0);
      SubsequenceExtend(xs0, ys0, ys[|ys| - 1]);
      assert ys0 + [ys[|ys| - 1]] == ys;
    }
  }

  /** The position of the first occurrence of `x` in `s`. */
  function IndexOf<T(==,!new)>(s: seq<T>, x: T): (k: nat)
    requires x in s
    ensures k < |s| && s[k] == x && x !in s[..k]
  {
    if s[0] == x then 0
    else
      var k := 1 + IndexOf(s[1..], x);
      assert s[..k] == [s[0]] + s[1..][..k - 1];
      k
  }

  lemma {:induction false} IndexOfAppend<T(!new)>(s: seq<T>, y: T, x: T)
    requires x in s
    ensures IndexOf(s + [y], x) == IndexOf(s, x)
  {
    if s[0] != x {
      assert (s + [y])[1..] == s[1..] + [y];
      IndexOfAppend(s[1..], y, x);
    }
  }

  lemma IndexOfLast<T(!new)>(s: seq<T>, x: T)
    requires x !in s
    ensures IndexOf(s + [x], x) == |s|
  {
    assert (s + [x])[..|s|] == s;
  }

  /** pandas' `drop_duplicates()`: keep a row unless it equals an earlier one. */
  function DropDuplicates<T(==,!new)>(s: seq<T>): (r: seq<T>)
    ensures forall x :: x in r <==> x in s
    ensures NoDup(r)
    ensures |r| <= |s|
  {
    if |s| == 0 then []
    else
      var s0 := s[..|s| - 1];
      var x := s[|s| - 1];
      assert s == s0 + [x];
      var r0 := DropDuplicates(s0);
      if x in s0 then r0 else r0 + [x]
  }

  /** `s[i]` equals an element before it: pandas' `duplicated()` marks row `i`. */
  predicate IsRepeat<T(==)>(s: seq<T>, i: nat)
    requires i < |s|
  {
    s[i] in s[..i]
  }

  lemma IsRepeatPrefix<T(!new)>(s: seq<T>, n: nat, i: nat)
    requires i < n <= |s|
    ensures IsRepeat(s[..n], i) == IsRepeat(s, i)
  {
    assert s[..n][..i] == s[..i];
  }

  /** The positions of the repeated elements of `s`, increasing. */
  function Repeats<T(==,!new)>(s: seq<T>): (r: seq<nat>)
    ensures forall i: nat :: i in r <==> i < |s| && IsRepeat(s, i)
    ensures forall a, b :: 0 <= a < b < |r| ==> r[a] < r[b]
  {
    if |s| == 0 then []
    else
      var s0 := s[..|s| - 1];
      var r0 := Repeats(s0);
      RepeatsPrefix(s, r0);
      if IsRepeat(s, |s| - 1) then r0 + [|s| - 1] else r0
  }

  lemma RepeatsPrefix<T(!new)>(s: seq<T>, r0: seq<nat>)
    requires |s| > 0
    requires forall i: nat :: i in r0 <==> i < |s| - 1 && IsRepeat(s[..|s| - 1], i)
    ensures forall i: nat :: i in r0 <==> i < |s| - 1 && IsRepeat(s, i)
    ensures forall a :: 0 <= a < |r0| ==> r0[a] < |s| - 1
  {
    assert forall a :: 0 <= a < |r0| ==> r0[a] in r0;
    forall i: nat | i < |s| - 1
      ensures IsRepeat(s[..|s| - 1], i) == IsRepeat(s, i)
    {
      IsRepeatPrefix(s, |s| - 1, i);
    }
  }

  /** Every element of `s` is kept or reported as a repeat, never both. */
  lemma {:induction false} DropDuplicatesCount<T(!new)>(s: seq<T>)
    ensures |DropDuplicates(s)| + |Repeats(s)| == |s|
  {
    if |s| > 0 {
      DropDuplicatesCount(s[..|s| - 1]);
    }
  }

  /** The survivors appear in the order of their first occurrences in `s`. */
  lemma {:induction false} DropDuplicatesOrder<T(!new)>(s: seq<T>)
    ensures forall a, b :: 0 <= a < b < |DropDuplicates(s)| ==>
      IndexOf(s, DropDuplicates(s)[a]) < IndexOf(s, DropDuplicates(s)[b])
  {
    if |s| > 0 {
      var s0 := s[..|s| - 1];
      var x := s[|s| - 1];
      assert s == s0 + [x];
      DropDuplicatesOrder(s0);
      var r0 := DropDuplicates(s0);
      var r := DropDuplicates(s);
      forall a | 0 <= a < |r0|
        ensures IndexOf(s, r0[a]) == IndexOf(s0, r0[a])
      {
        IndexOfAppend(s0, x, r0[a]);
      }
      if x !in s0 {
        IndexOfLast(s0, x);
        assert r == r0 + [x];
        forall a, b | 0 <= a < b < |r|
          ensures IndexOf(s, r[a]) < IndexOf(s, r[b])
        {
          assert r[a] == r0[a] && r0[a] in r0;
          if b < |r0| {
            assert r[b] == r0[b] && r0[b] in r0;
            assert IndexOf(s0, r0[a]) < IndexOf(s0, r0[b]);
            assert IndexOf(s, r0[b]) == IndexOf(s0, r0[b]);
          } else {
            assert r[b] == x;
            assert IndexOf(s0, r0[a]) < |s0|;
          }
        }
      }
    }
  }

  /** Deduplicating a duplicate-free sequence changes nothing. */
  lemma {:induction false} DropDuplicatesOfNoDup<T(!new)>(s: seq<T>)
    requires NoDup(s)
    ensures DropDuplicates(s) == s
  {
    if |s| > 0 {
      var s0 := s[..|s| - 1];
      assert NoDup(s0);
      DropDuplicatesOfNoDup(s0);
      assert s[|s| - 1] !in s0;
      assert s0 + [s[|s| - 1]] == s;
    }
  }

  /** A duplicate-free sequence has no repeats. */
  lemma NoDupHasNoRepeats<T(!new)>(s: seq<T>)
    requires NoDup(s)
    ensures Repeats(s) == []
  {
    if Repeats(s) != [] {
      assert Repeats(s)[0] in Repeats(s);
    }
  }

  /** Dropping duplicates twice removes nothing more. */
  lemma DropDuplicatesIdempotent<T(!new)>(s: seq<T>)
    ensures DropDuplicates(DropDuplicates(s)) == DropDuplicates(s)
    ensures Repeats(DropDuplicates(s)) == []
  {
    DropDuplicatesOfNoDup(DropDuplicates(s));
    NoDupHasNoRepeats(DropDuplicates(s));
  }

  /** `for x in items: if x not in acc: acc.append(x)` */
  function AppendAbsent<T(==,!new)>(acc: seq<T>, items: seq<T>): (r: seq<T>)
    ensures |acc| <= |r| && r[..|acc|] == acc
    ensures forall x :: x in r <==> x in acc || x in items
    ensures NoDup(acc) ==> NoDup(r)
  {
    if |items| == 0 then acc
    else
      var i0 := items[..|items| - 1];
      var x := items[|items| - 1];
      assert items == i0 + [x];
      var r0 := AppendAbsent(acc, i0);
      if x in r0 then r0 else r0 + [x]
  }

  /** What the append loop adds is exactly the items not already present,
      each once, in the order of their first occurrence among the items. */
  lemma {:induction false} AppendAbsentAdds<T(!new)>(acc: seq<T>, items: seq<T>)
    ensures AppendAbsent(acc, items) == acc + DropDuplicates(Without(items, acc))
  {
    if |items| > 0 {
      var i0 := items[..|items| - 1];
      var x := items[|items| - 1];
      assert items == i0 + [x];
      AppendAbsentAdds(acc, i0);
      FilterAppend(i0, x, y => y !in acc);
      var f0 := Without(i0, acc);
      if x !in acc {
        assert Without(items, acc) == f0 + [x];
        assert (f0 + [x])[..|f0 + [x]| - 1] == f0;
      }
    }
  }

  /** With nothing repeated, the append loop appends every item. */
  lemma {:induction false} AppendAbsentFresh<T(!new)>(acc: seq<T>, items: seq<T>)
    requires NoDup(acc + items)
    ensures AppendAbsent(acc, items) == acc + items
  {
    if |items| > 0 {
      var i0 := items[..|items| - 1];
      var x := items[|items| - 1];
      assert items == i0 + [x];
      assert acc + items == (acc + i0) + [x];
      assert forall a, b :: 0 <= a < b < |acc + i0| ==> (acc + i0)[a] == (acc + items)[a] && (acc + i0)[b] == (acc + items)[b];
      AppendAbsentFresh(acc, i0);
      forall a | 0 <= a < |acc + i0|
        ensures (acc + i0)[a] != x
      {
        assert (acc + items)[a] != (acc + items)[|acc + items| - 1];
      }
    }
  }

  /** A filter every element passes changes nothing. */
  lemma {:induction false} FilterKeepsAll<T(!new)>(s: seq<T>, p: T -> bool)
    requires forall x :: x in s ==> p(x)
    ensures Filter(s, p) == s
  {
    if |s| > 0 {
      var s0 := s[..|s| - 1];
      assert s == s0 + [s[|s| - 1]];
      FilterKeepsAll(s0, p);
    }
  }

  /** Removing the names of `drop + [c]` is removing those of `drop`, then `c`. */
  lemma {:induction false} WithoutAppend<T(!new)>(s: seq<T>, drop: seq<T>, c: T)
    ensures Without(s, drop + [c]) == Without(Without(s, drop), [c])
  {
    if |s| > 0 {
      var s0 := s[..|s| - 1];
      var x := s[|s| - 1];
      assert s == s0 + [x];
      WithoutAppend(s0, drop, c);
      FilterAppend(s0, x, y => y !in drop + [c]);
      FilterAppend(s0, x, y => y !in drop);
      FilterAppend(Without(s0, drop), x, y => y !in [c]);
    }
  }

  /** One more name to drop removes it from what is left, if it is there. */
  lemma WithoutStep<T(!new)>(s: seq<T>, drop: seq<T>, c: T)
    ensures Without(s, drop + [c])
      == if c in Without(s, drop) then Without(Without(s, drop), [c]) else Without(s, drop)
  {
    WithoutAppend(s, drop, c);
    if c !in Without(s, drop) {
      FilterKeepsAll(Without(s, drop), x => x !in [c]);
    }
  }

  /** The names of `drop + [c]` found in `s`, each once, gain `c` exactly when
      `c` is still in `s` after dropping the names of `drop`. */
  lemma WithinStep<T(!new)>(s: seq<T>, drop: seq<T>, c: T)
    ensures DropDuplicates(Within(drop + [c], s))
      == if c in Without(s, drop) then DropDuplicates(Within(drop, s)) + [c] else DropDuplicates(Within(drop, s))
  {
    var w0 := Within(drop, s);
    FilterAppend(drop, c, x => x in s);
    if c in s {
      assert (w0 + [c])[..|w0 + [c]| - 1] == w0;
    } else {
      assert Within(drop + [c], s) == w0;
    }
  }

  /** The elements of `s` in `t` and those not in `t` together make up `s`. */
  lemma {:induction false} WithinWithout<T(!new)>(s: seq<T>, t: seq<T>)
    ensures multiset(Within(s, t)) + multiset(Without(s, t)) == multiset(s)
    ensures |Within(s, t)| + |Without(s, t)| == |s|
  {
    if |s| > 0 {
      var s0 := s[..|s| - 1];
      var x := s[|s| - 1];
      assert s == s0 + [x];
      WithinWithout(s0, t);
      FilterAppend(s0, x, y => y in t);
      FilterAppend(s0, x, y => y !in t);
    }
  }

  /** The elements of `s` whose positions are not in `drop`, in order: what
      popping the selected positions of a list, from the last one back,
      leaves. Positions past the end are ignored. */
  function RemoveAt<T>(s: seq<T>, drop: set<nat>): (r: seq<T>)
    ensures |r| <= |s|
  {
    if |s| == 0 then []
    else
      var init := RemoveAt(s[..|s| - 1], drop);
      if |s| - 1 in drop then init else init + [s[|s| - 1]]
  }

  /** `kept` are the positions `RemoveAt` keeps: exactly the positions of `s`
      not in `drop`, in increasing order, and the `j`-th element left is the
      element of `s` at `kept[j]`. */
  lemma {:induction false} RemoveAtKept<T>(s: seq<T>, drop: set<nat>) returns (kept: seq<nat>)
    ensures |kept| == |RemoveAt(s, drop)|
    ensures forall j :: 0 <= j < |kept| ==> kept[j] < |s| && kept[j] !in drop && RemoveAt(s, drop)[j] == s[kept[j]]
    ensures forall a, b :: 0 <= a < b < |kept| ==> kept[a] < kept[b]
    ensures forall i :: 0 <= i < |s| && i !in drop ==> i in kept
  {
    if |s| == 0 {
      kept := [];
    } else {
      var init := s[..|s| - 1];
      var k0 := RemoveAtKept(init, drop);
      if |s| - 1 in drop {
        kept := k0;
      } else {
        kept := k0 + [|s| - 1];
      }
    }
  }

  /** Removing positions of a list without repeats keeps it without
      repeats, and the removed elements are really gone. */
  lemma RemoveAtNoDup<T(!new)>(s: seq<T>, drop: set<nat>)
    requires NoDup(s)
    ensures NoDup(RemoveAt(s, drop))
    ensures forall i :: 0 <= i < |s| && i in drop ==> s[i] !in RemoveAt(s, drop)
  {
    var r := RemoveAt(s, drop);
    var kept := RemoveAtKept(s, drop);
    forall a, b | 0 <= a < b < |r|
      ensures r[a] != r[b]
    {
      assert kept[a] < kept[b];
    }
    forall i | 0 <= i < |s| && i in drop
      ensures s[i] !in r
    {
      forall j | 0 <= j < |r|
        ensures r[j] != s[i]
      {
        assert kept[j] != i;
      }
    }
  }

  /** What is left came from `s`, and every element at a position not
      dropped is left. */
  lemma RemoveAtMembers<T>(s: seq<T>, drop: set<nat>)
    ensures forall x :: x in RemoveAt(s, drop) ==> x in s
    ensures forall i :: 0 <= i < |s| && i !in drop ==> s[i] in RemoveAt(s, drop)
  {
    var r := RemoveAt(s, drop);
    var kept := RemoveAtKept(s, drop);
    forall x | x in r
      ensures x in s
    {
      var j :| 0 <= j < |r| && r[j] == x;
      assert s[kept[j]] == x;
    }
    forall i | 0 <= i < |s| && i !in drop
      ensures s[i] in r
    {
      var j :| 0 <= j < |kept| && kept[j] == i;
      assert r[j] == s[i];
    }
  }

  /** Dropping no position of `s` leaves it unchanged. */
  lemma {:induction false} RemoveAtNothing<T>(s: seq<T>, drop: set<nat>)
    requires forall i :: i in drop ==> i >= |s|
    ensures RemoveAt(s, drop) == s
  {
    if |s| > 0 {
      RemoveAtNothing(s[..|s| - 1], drop);
    }
  }

  /** Dropping every position of `s` leaves nothing. */
  lemma RemoveAtEverything<T>(s: seq<T>, drop: set<nat>)
    requires forall i :: 0 <= i < |s| ==> i in drop
    ensures RemoveAt(s, drop) == []
  {
    var kept := RemoveAtKept(s, drop);
    assert forall j :: 0 <= j < |kept| ==> kept[j] in drop;
  }

  /** Dropping one position is cutting that element out. */
  lemma {:induction false} RemoveAtOne<T>(s: seq<T>, i: nat)
    requires i < |s|
    ensures RemoveAt(s, {i}) == s[..i] + s[i + 1..]
  {
    var init := s[..|s| - 1];
    if i == |s| - 1 {
      RemoveAtNothing(init, {i});
    } else {
      RemoveAtOne(init, i);
      assert s[i + 1..] == init[i + 1..] + [s[|s| - 1]];
    }
  }
}

=== FILE: tables.dfy ===
/** The tabular data the consolidator moves around, in place of a pandas
    DataFrame: an ordered list of column labels and a list of rows, each row
    mapping a label to a cell or to null. `Concat` is the outer-union
    concatenation of `pd.concat(frames, ignore_index=True)`. */
module Tables {
  import opened Results
  import opened Seqs

  type Column = string

  /** A cell value. Type inference and coercion are not modelled, only equality. */
  datatype Cell = Text(text: string) | Number(number: real) | Boolean(flag: bool)

  /** `None` is pandas' null (`NaN`); `duplicated()` treats two nulls as equal. */
  type Row = map<Column, Option<Cell>>

  datatype Table = Table(columns: seq<Column>, rows: seq<Row>)

  /** The row has a value (possibly null) for exactly the given columns. */
  predicate Keyed(r: Row, columns: seq<Column>) {
    r.Keys == set c | c in columns
  }

  /** Column labels are unique (pandas' readers mangle repeated header labels)
      and every row is keyed by exactly the columns. */
  predicate WellFormed(t: Table) {
    NoDup(t.columns) && forall i :: 0 <= i < |t.rows| ==> Keyed(t.rows[i], t.columns)
  }

  /** The columns of the concatenation: every label of every table, in order of
      first appearance, each once. */
  function UnionColumns(ts: seq<Table>): (r: seq<Column>)
    ensures NoDup(r)
    ensures forall c :: c in r <==> exists k :: 0 <= k < |ts| && c in ts[k].columns
  {
    if |ts| == 0 then []
    else
      var init := ts[..|ts| - 1];
      var u := UnionColumns(init);
      assert forall k :: 0 <= k < |init| ==> init[k] == ts[k];
      AppendAbsent(u, ts[|ts| - 1].columns)
  }

  /** The row re-keyed to `columns`, with null where the row has no value. */
  function Align(r: Row, columns: seq<Column>): (a: Row)
    ensures Keyed(a, columns)
  {
    map c | c in columns :: if c in r then r[c] else None
  }

  function TotalRows(ts: seq<Table>): nat {
    if |ts| == 0 then 0 else TotalRows(ts[..|ts| - 1]) + |ts[|ts| - 1].rows|
  }

  /** The rows of every table, table after table, aligned to `columns`. */
  function Stack(ts: seq<Table>, columns: seq<Column>): (r: seq<Row>)
    ensures |r| == TotalRows(ts)
    ensures forall i :: 0 <= i < |r| ==> Keyed(r[i], columns)
  {
    if |ts| == 0 then []
    else
      var last := ts[|ts| - 1];
      Stack(ts[..|ts| - 1], columns) + Map(last.rows, (row: Row) => Align(row, columns))
  }

  /** `pd.concat(ts, ignore_index=True)` */
  function Concat(ts: seq<Table>): (r: Table)
    ensures WellFormed(r)
    ensures |r.rows| == TotalRows(ts)
    ensures forall c :: c in r.columns <==> exists k :: 0 <= k < |ts| && c in ts[k].columns
  {
    var columns := UnionColumns(ts);
    Table(columns, Stack(ts, columns))
  }

  /** Row `j` of table `k` sits at position `TotalRows(ts[..k]) + j` of the
      stack: tables in order, rows in order within each table. */
  lemma {:induction false} StackAt(ts: seq<Table>, columns: seq<Column>, k: nat, j: nat)
    requires k < |ts| && j < |ts[k].rows|
    ensures TotalRows(ts[..k]) + j < TotalRows(ts)
    ensures Stack(ts, columns)[TotalRows(ts[..k]) + j] == Align(ts[k].rows[j], columns)
  {
    var n := |ts|;
    var init := ts[..n - 1];
    var below := Stack(init, columns);
    if k == n - 1 {
      assert ts[..k] == init;
    } else {
      assert init[k] == ts[k];
      assert init[..k] == ts[..k];
      StackAt(init, columns, k, j);
    }
  }

  /** The outer-union rule: in the concatenation, a row of table `k` keeps its
      value for every column table `k` has, and is null in every other column. */
  lemma ConcatCell(ts: seq<Table>, k: nat, j: nat, c: Column)
    requires k < |ts| && j < |ts[k].rows| && WellFormed(ts[k])
    requires c in Concat(ts).columns
    ensures TotalRows(ts[..k]) + j < |Concat(ts).rows|
    ensures var row := Concat(ts).rows[TotalRows(ts[..k]) + j];
      c in row && row[c] == (if c in ts[k].columns then ts[k].rows[j][c] else None)
  {
    StackAt(ts, UnionColumns(ts), k, j);
  }

  /** The first table's columns open the concatenation, in their own order. */
  lemma {:induction false} UnionStartsWithFirst(ts: seq<Table>)
    requires |ts| > 0 && NoDup(ts[0].columns)
    ensures var u := UnionColumns(ts);
      |ts[0].columns| <= |u| && u[..|ts[0].columns|] == ts[0].columns
  {
    if |ts| == 1 {
      UnionOfOne(ts);
    } else {
      var init := ts[..|ts| - 1];
      assert init[0] == ts[0];
      UnionStartsWithFirst(init);
      UnionExtends(ts);
      var m := |ts[0].columns|;
      var u0 := UnionColumns(init);
      assert UnionColumns(ts)[..m] == u0[..m];
    }
  }

  lemma UnionOfOne(ts: seq<Table>)
    requires |ts| == 1 && NoDup(ts[0].columns)
    ensures UnionColumns(ts) == ts[0].columns
  {
    AppendAbsentFresh([], ts[0].columns);
    assert [] + ts[0].columns == ts[0].columns;
  }

  /** Adding a table only appends columns. */
  lemma UnionExtends(ts: seq<Table>)
    requires |ts| > 1
    ensures var u0 := UnionColumns(ts[..|ts| - 1]);
      |u0| <= |UnionColumns(ts)| && UnionColumns(ts)[..|u0|] == u0
  {
  }

  /** Removing repeated rows of a well-formed table keeps it well-formed. */
  lemma DropDuplicateRowsWellFormed(t: Table)
    requires WellFormed(t)
    ensures WellFormed(Table(t.columns, DropDuplicates(t.rows)))
  {
    var r := DropDuplicates(t.rows);
    forall i | 0 <= i < |r|
      ensures Keyed(r[i], t.columns)
    {
      assert r[i] in r;
      var j :| 0 <= j < |t.rows| && t.rows[j] == r[i];
    }
  }
}

=== FILE: text.dfy ===
/** The handful of Python string and path operations the consolidator relies on:
    `str.lower` (on ASCII letters), `str.endswith`, `str.strip`, `str.split(',')`,
    `os.path.basename`, `os.path.join` and the code-point order used by `sorted`. */
module Text {

  /** Python's `str.lower` restricted to ASCII letters. Every suffix and format the
      consolidator compares against is ASCII, and no non-ASCII character lowers to
      one of `.`, `c`, `s`, `v`, `x`, `l`, so the decisions taken on the lowered
      text are the same as with full Unicode case mapping. */
  function LowerChar(c: char): char {
    if 'A' <= c <= 'Z' then (c as int + 32) as char else c
  }

  function Lower(s: string): (r: string)
    ensures |r| == |s|
  {
    if |s| == 0 then [] else Lower(s[..|s| - 1]) + [LowerChar(s[|s| - 1])]
  }

  /** `s.endswith(suffix)` */
  predicate EndsWith(s: string, suffix: string) {
    |suffix| <= |s| && s[|s| - |suffix|..] == suffix
  }

  /** `s.startswith(prefix)` */
  predicate StartsWith(s: string, prefix: string) {
    |prefix| <= |s| && s[..|prefix|] == prefix
  }

  /** `os.path.basename` (POSIX): everything after the last `/`. */
  function Basename(p: string): (r: string)
    ensures '/' !in r
    ensures EndsWith(p, r)
    ensures |r| < |p| ==> p[|p| - |r| - 1] == '/'
  {
    if |p| == 0 then []
    else if p[|p| - 1] == '/' then []
    else
      var init := Basename(p[..|p| - 1]);
      assert p[..|p| - 1][|p| - 1 - |init|..] == init;
      init + [p[|p| - 1]]
  }

  /** A basename has no directory part left to strip. */
  lemma {:induction false} BasenameIdempotent(p: string)
    ensures Basename(Basename(p)) == Basename(p)
  {
    BasenameOfSlashFree(Basename(p));
  }

  /** The three properties `Basename` ensures pin its result down: a
      slash-free tail of the path that is the whole path or follows a `/`. */
  lemma BasenameUnique(p: string, r: string)
    requires '/' !in r && EndsWith(p, r)
    requires |r| < |p| ==> p[|p| - |r| - 1] == '/'
    ensures r == Basename(p)
  {
  }

  lemma {:induction false} BasenameOfSlashFree(p: string)
    requires '/' !in p
    ensures Basename(p) == p
  {
    if |p| > 0 {
      assert p[|p| - 1] in p;
      BasenameOfSlashFree(p[..|p| - 1]);
      assert p[..|p| - 1] + [p[|p| - 1]] == p;
    }
  }

  /** Lower-casing the whole path or only its basename decides a slash-free
      suffix the same way, so checking `ruta.lower()` (as the header discovery
      does) agrees with checking `basename(ruta).lower()` (as the validator and
      the reader do). */
  lemma BasenameSuffix(p: string, suffix: string)
    requires '/' !in suffix
    ensures EndsWith(Lower(p), suffix) <==> EndsWith(Lower(Basename(p)), suffix)
  {
    var b := Basename(p);
    var dir := p[..|p| - |b|];
    assert p == dir + b;
    LowerConcat(dir, b);
    LowerSlashFree(b);
    if |dir| > 0 {
      assert dir[|dir| - 1] == '/';
      assert dir == dir[..|dir| - 1] + ['/'];
      LowerConcat(dir[..|dir| - 1], ['/']);
      assert Lower(['/']) == ['/'];
    }
    SuffixAfterSlash(Lower(dir), Lower(b), suffix);
  }

  /** A slash-free suffix of `d + b`, where `d` is empty or ends in `/` and `b`
      has no `/`, lies entirely within `b`. */
  lemma SuffixAfterSlash(d: string, b: string, suffix: string)
    requires '/' !in suffix && '/' !in b
    requires |d| > 0 ==> d[|d| - 1] == '/'
    ensures EndsWith(d + b, suffix) <==> EndsWith(b, suffix)
  {
    var s := d + b;
    if |suffix| <= |b| {
      assert s[|s| - |suffix|..] == b[|b| - |suffix|..];
    } else if |suffix| <= |s| {
      var t := s[|s| - |suffix|..];
      assert t[|suffix| - |b| - 1] == s[|d| - 1] == '/';
    }
  }

  lemma {:induction false} LowerSlashFree(s: string)
    requires '/' !in s
    ensures '/' !in Lower(s)
  {
    if |s| > 0 {
      var s0 := s[..|s| - 1];
      assert forall c :: c in s0 ==> c in s;
      LowerSlashFree(s0);
      assert s[|s| - 1] in s;
    }
  }

  /** A text without upper-case ASCII letters is its own lower-case form. */
  lemma {:induction false} LowerOfLowercase(s: string)
    requires forall k :: 0 <= k < |s| ==> !('A' <= s[k] <= 'Z')
    ensures Lower(s) == s
  {
    if |s| > 0 {
      var s0 := s[..|s| - 1];
      LowerOfLowercase(s0);
      assert s == s0 + [s[|s| - 1]];
    }
  }

  lemma {:induction false} LowerConcat(x: string, y: string)
    ensures Lower(x + y) == Lower(x) + Lower(y)
  {
    if |y| == 0 {
      assert x + y == x;
    } else {
      var y0 := y[..|y| - 1];
      var c := y[|y| - 1];
      assert (x + y)[..|x + y| - 1] == x + y0;
      assert (x + y)[|x + y| - 1] == c;
      LowerConcat(x, y0);
      assert Lower(x + y) == Lower(x + y0) + [LowerChar(c)];
      assert Lower(y) == Lower(y0) + [LowerChar(c)];
      assert Lower(x) + Lower(y0) + [LowerChar(c)] == Lower(x) + (Lower(y0) + [LowerChar(c)]);
    }
  }

  lemma TailOfConcat<T>(x: seq<T>, y: seq<T>, k: nat)
    requires k <= |y|
    ensures (x + y)[|x + y| - k..] == y[|y| - k..]
  {
  }

  /** `os.path.join(dir, name)` for two components (POSIX): an absolute `name`
      discards `dir`; otherwise a `/` is inserted unless `dir` is empty or
      already ends with one. */
  function JoinPath(dir: string, name: string): (r: string)
    ensures EndsWith(r, name)
    ensures StartsWith(name, "/") ==> r == name
    ensures !StartsWith(name, "/") ==> StartsWith(r, dir)
  {
    if StartsWith(name, "/") then name
    else if |dir| == 0 || EndsWith(dir, "/") then dir + name
    else dir + "/" + name
  }

  /** The characters Python's `str.isspace` accepts, which `str.strip` removes. */
  predicate IsSpace(c: char) {
    var n := c as int;
    n == 0x20 || 0x09 <= n <= 0x0D || 0x1C <= n <= 0x1F || n == 0x85 || n == 0xA0
    || n == 0x1680 || 0x2000 <= n <= 0x200A || n == 0x2028 || n == 0x2029
    || n == 0x202F || n == 0x205F || n == 0x3000
  }

  /** Every character of `s` at positions `lo..hi` is whitespace. */
  predicate AllSpaceIn(s: string, lo: int, hi: int)
    requires 0 <= lo <= hi <= |s|
  {
    forall k :: lo <= k < hi ==> IsSpace(s[k])
  }

  predicate AllSpace(s: string) {
    AllSpaceIn(s, 0, |s|)
  }

  function TrimStart(s: string): (r: string)
    ensures |r| <= |s| && r == s[|s| - |r|..]
    ensures AllSpaceIn(s, 0, |s| - |r|)
    ensures |r| > 0 ==> !IsSpace(r[0])
  {
    if |s| > 0 && IsSpace(s[0]) then TrimStart(s[1..]) else s
  }

  function TrimEnd(s: string): (r: string)
    ensures |r| <= |s| && r == s[..|r|]
    ensures AllSpaceIn(s, |r|, |s|)
    ensures |r| > 0 ==> !IsSpace(r[|r| - 1])
  {
    if |s| > 0 && IsSpace(s[|s| - 1]) then TrimEnd(s[..|s| - 1]) else s
  }

  /** `s.strip()`: the result is `s` without its leading and trailing whitespace. */
  function Strip(s: string): (r: string)
    ensures exists i, j :: 0 <= i <= j <= |s| && r == s[i..j] && AllSpaceIn(s, 0, i) && AllSpaceIn(s, j, |s|)
    ensures |r| > 0 ==> !IsSpace(r[0]) && !IsSpace(r[|r| - 1])
    ensures AllSpace(s) <==> r == []
  {
    StripFacts(s);
    TrimEnd(TrimStart(s))
  }

  lemma StripFacts(s: string)
    ensures var r := TrimEnd(TrimStart(s));
      && (exists i, j :: 0 <= i <= j <= |s| && r == s[i..j] && AllSpaceIn(s, 0, i) && AllSpaceIn(s, j, |s|))
      && (AllSpace(s) <==> r == [])
  {
    var a := TrimStart(s);
    var r := TrimEnd(a);
    var i := |s| - |a|;
    var j := i + |r|;
    TrimmedSlice(s, a, r, i, j);
  }

  /** The facts `TrimStart` and `TrimEnd` establish, composed. */
  lemma TrimmedSlice(s: string, a: string, r: string, i: nat, j: nat)
    requires |a| <= |s| && a == s[|s| - |a|..] && AllSpaceIn(s, 0, |s| - |a|)
    requires |a| > 0 ==> !IsSpace(a[0])
    requires |r| <= |a| && r == a[..|r|] && AllSpaceIn(a, |r|, |a|)
    requires i == |s| - |a| && j == i + |r|
    ensures j <= |s| && r == s[i..j] && AllSpaceIn(s, 0, i) && AllSpaceIn(s, j, |s|)
    ensures AllSpace(s) <==> r == []
  {
    SliceOfSuffix(s, i, |r|);
    assert AllSpaceIn(s, j, |s|) by {
      forall k | j <= k < |s|
        ensures IsSpace(s[k])
      {
        assert s[k] == a[k - i];
      }
    }
    if r != [] {
      assert r[0] == s[i];
    } else {
      assert |a| == 0;
    }
  }

  lemma SliceOfSuffix<T>(s: seq<T>, i: nat, m: nat)
    requires i + m <= |s|
    ensures s[i..][..m] == s[i..i + m]
  {
  }

  /** Stripping twice is stripping once. */
  lemma StripIdempotent(s: string)
    ensures Strip(Strip(s)) == Strip(s)
  {
    var r := Strip(s);
    if |r| > 0 {
      NoEdgeSpaceIsStripped(r);
    }
  }

  lemma NoEdgeSpaceIsStripped(s: string)
    requires |s| > 0 ==> !IsSpace(s[0]) && !IsSpace(s[|s| - 1])
    ensures Strip(s) == s
  {
  }

  /** `s.split(sep)` with an explicit separator: the pieces between separators,
      always at least one (an empty `s` gives `[""]`). */
  function Split(s: string, sep: char): (r: seq<string>)
    ensures |r| >= 1
    ensures forall k :: 0 <= k < |r| ==> sep !in r[k]
  {
    if |s| == 0 then [[]]
    else
      var init := Split(s[..|s| - 1], sep);
      var c := s[|s| - 1];
      if c == sep then init + [[]]
      else init[..|init| - 1] + [init[|init| - 1] + [c]]
  }

  /** `sep.join(pieces)` */
  function Join(pieces: seq<string>, sep: char): string {
    if |pieces| == 0 then []
    else if |pieces| == 1 then pieces[0]
    else Join(pieces[..|pieces| - 1], sep) + [sep] + pieces[|pieces| - 1]
  }

  /** Joining the pieces of a split gives back the text. */
  lemma {:induction false} JoinSplit(s: string, sep: char)
    ensures Join(Split(s, sep), sep) == s
  {
    if |s| > 0 {
      var s0 := s[..|s| - 1];
      var c := s[|s| - 1];
      var init := Split(s0, sep);
      JoinSplit(s0, sep);
      assert s == s0 + [c];
      if c == sep {
        JoinAppend(init, [], sep);
      } else {
        JoinExtendLast(init, [c], sep);
      }
    }
  }

  lemma JoinAppend(pieces: seq<string>, piece: string, sep: char)
    requires |pieces| >= 1
    ensures Join(pieces + [piece], sep) == Join(pieces, sep) + [sep] + piece
  {
    assert (pieces + [piece])[..|pieces|] == pieces;
  }

  lemma JoinExtendLast(pieces: seq<string>, x: string, sep: char)
    requires |pieces| >= 1
    ensures var n := |pieces|;
      Join(pieces[..n - 1] + [pieces[n - 1] + x], sep) == Join(pieces, sep) + x
  {
    var n := |pieces|;
    if n > 1 {
      var r := pieces[..n - 1] + [pieces[n - 1] + x];
      assert r[..n - 1] == pieces[..n - 1];
    }
  }

  /** Splitting a join of separator-free pieces gives back the pieces. */
  lemma {:induction false} SplitJoin(pieces: seq<string>, sep: char)
    requires |pieces| >= 1
    requires forall k :: 0 <= k < |pieces| ==> sep !in pieces[k]
    ensures Split(Join(pieces, sep), sep) == pieces
  {
    var n := |pieces|;
    if n == 1 {
      SplitFree(pieces[0], sep);
    } else {
      var init := pieces[..n - 1];
      SplitJoin(init, sep);
      var j := Join(init, sep);
      SplitAppend(j, pieces[n - 1], sep);
      assert init + [pieces[n - 1]] == pieces;
    }
  }

  /** A separator-free text splits into itself. */
  lemma {:induction false} SplitFree(s: string, sep: char)
    requires sep !in s
    ensures Split(s, sep) == [s]
  {
    if |s| > 0 {
      assert s[|s| - 1] in s;
      SplitFree(s[..|s| - 1], sep);
      assert s[..|s| - 1] + [s[|s| - 1]] == s;
    }
  }

  /** Appending a separator and a separator-free piece adds one piece. */
  lemma {:induction false} SplitAppend(s: string, piece: string, sep: char)
    requires sep !in piece
    ensures Split(s + [sep] + piece, sep) == Split(s, sep) + [piece]
    decreases |piece|
  {
    var t := s + [sep] + piece;
    if |piece| == 0 {
      assert t[..|t| - 1] == s;
    } else {
      var c := piece[|piece| - 1];
      assert c in piece;
      var p0 := piece[..|piece| - 1];
      assert t[..|t| - 1] == s + [sep] + p0;
      SplitAppend(s, p0, sep);
      assert p0 + [c] == piece;
    }
  }

  /** Python's `<` on `str`: lexicographic on code points, a proper prefix first. */
  predicate Less(a: string, b: string) {
    if |a| == 0 then |b| > 0
    else if |b| == 0 then false
    else if a[0] == b[0] then Less(a[1..], b[1..])
    else a[0] < b[0]
  }

  lemma {:induction false} LessIrreflexive(a: string)
    ensures !Less(a, a)
  {
    if |a| > 0 {
      LessIrreflexive(a[1..]);
    }
  }

  lemma {:induction false} LessTransitive(a: string, b: string, c: string)
    requires Less(a, b) && Less(b, c)
    ensures Less(a, c)
  {
    if |a| > 0 && |b| > 0 && |c| > 0 && a[0] == b[0] && b[0] == c[0] {
      LessTransitive(a[1..], b[1..], c[1..]);
    }
  }

  lemma {:induction false} LessTotal(a: string, b: string)
    ensures a == b || Less(a, b) || Less(b, a)
  {
    if |a| > 0 && |b| > 0 && a[0] == b[0] {
      LessTotal(a[1..], b[1..]);
      if a[1..] == b[1..] {
        assert a == [a[0]] + a[1..] && b == [b[0]] + b[1..];
      }
    }
  }

  lemma LessAsymmetric(a: string, b: string)
    requires Less(a, b)
    ensures !Less(b, a)
  {
    if Less(b, a) {
      LessTransitive(a, b, a);
      LessIrreflexive(a);
    }
  }
}
